=== FILE: README.md ===
# DiscoJar web control, modelled in Dafny

DiscoJar is a lamp sketch for a Teensy. An ESP8266 modem is attached to the
Teensy's second serial port. The sketch runs a tiny web server over the modem's AT
command set:
- a GET request receives the control page;
- a POST request carries a 20-byte packet that sets the lamp's
  configuration (`State`: mode, brightness, two colours, two spare bytes,
  and the decay and gain floats).

This project models the protocol core of `WIFIControl.cpp`/`WIFIControl.h` as pure
functions over explicit state. It proves what each step does, with the
sketch's defects included.

- **`Bytes`**: the byte type and the literals the sketch compares with.
- **`Numbers`**: `sscanf`'s `%d` (`ScanInt`), and the decimal text an
  Arduino `String` appends for an `int` (`Decimal`). `%d` reads back what
  `Decimal` writes (`ScanDecimal`). In general it reads white space, an
  optional sign and digits (`ScanSignedDigits`), and fails without a
  digit (`ScanNoDigits`).
- **`LineFramer`**: `read_till_eol`. One byte per call goes into the shared
  1024-byte buffer, with a static index. A frame ends on CR LF, or on ':'
  while a POST body is outstanding. The busy loop that calls it until a
  frame completes is also here.
- **`Waiter`**: `waitForResponse`. It reads into the same buffer until the
  bytes end with a token, or until the deadline passes.
- **`Lamp`**: `State`, its defaults, the packet layout the page's script
  builds, and the fixed-offset decode at the end of `readPost`.
- **`Page`**: `serveHomePage`. It builds the response with its
  Content-Length and sends it in chunks of at most 1024 bytes, each behind
  an `AT+CIPSEND` handshake.
- **`Post`**: `readPost`. It covers:
  - the header scan and the `Content-Length: ` value;
  - the copy of at most 100 body bytes;
  - the counters carried between deliveries;
  - the decode;
  - the empty acknowledgment.
- **`Server`**: `loopWebServer`. It covers:
  - the `+IPD,<channel>,<length>:` header;
  - the search for ':';
  - the GET and POST tests;
  - the hand-offs to `serveHomePage` and `readPost`.

  `Steps` runs the main loop, calling `loopWebServer` once per step.

The globals are modelled as follows.
- `Post.Core` holds the line buffer and its index, `missingPostData`,
  `bufferPos`, `postBufferLen`, `postBuffer` and `_state`.
- `Waiter.Io` holds the serial input still to come, and one byte window per
  bounded wait.
- A call's outcome (`Post.Run`) is one of:
  - `Ran` with the new globals, the rest of the stream and the modem
    requests made (`Page.Event`);
  - `Blocked`, a busy-wait that never ends;
  - `Crashed`, an access outside the line buffer.

### Behaviour modelled as written

The model follows the code where it misbehaves.
- **Bytes past the 100th are left in the stream.** A body longer than 100
  bytes has only its first 100 copied (WIFIControl.cpp:267-268). Nothing
  in `readPost` reads the rest, so it stays in the stream
  (`Post.DeliverCompletes`, `r.rest == input[n..]`). The next calls of
  `loopWebServer` frame those bytes like any others, and drop the frames
  unless they start with "+IPD," (WIFIControl.cpp:103-104).
- **A split body loses its tail.** A continuation copies from `bufferPos` up to its own
  count, not up to `bufferPos` plus its count. So once as many bytes are
  stored as are still missing, the body is declared complete without
  reading the rest of it. The lamp then decodes stale buffer contents.
  `Post.DeliverSkipsContinuation` shows this for any delivery, and
  `Post.SplitPacketLosesTail` for a 20-byte packet split 12 + 8. When
  fewer bytes are stored than are still missing, the continuation copies
  only the indexes from `bufferPos` up to the missing count. It then
  declares the body complete and leaves `bufferPos` bytes of its delivery
  in the stream. For example, a 50-byte body split 10 + 40 copies 30 bytes
  and leaves the last 10 unread. `Post.DeliverStores` states both cases.
- **The terminator test reads `buffer[-1]`.** When a POST body is
  outstanding, the 1024th byte of a frame wraps the index to 0, and the
  test then reads before the buffer. `Server.LoopWebServer`'s contract
  states exactly when this `Crashed(ReadBeforeLine)` happens.
- **Writes and reads past the buffer end.** `waitForResponse` writes past the buffer when 1024 bytes arrive
  before the token (`Crashed(WaitOverrun)`; `Waiter.WaitReadsToFirstMatch`).
  The search for ':' runs off the end of the buffer when there is none
  (`ColonOverrun`). A `strncmp` reads past it (`CompareOverrun`).
- **The `sscanf` result is unchecked.** `channelID` and `packet_len` keep
  their indeterminate values when the scan does not reach them (`Server.Junk`).
- **The POST test runs after the page is sent.** After a GET, the POST test reads the buffer as `waitForResponse` left
  it (`Server.PostTest`, `Server.GetDispatches`).

## Model

| member | source | states |
|---|---|---|
| Numbers.ScanInt | DiscoJar/WIFIControl.cpp:106 | when `%d` succeeds, its end index lies past the start, just after a digit, and is followed by a non-digit or the end |
| Numbers.ScanSignedDigits | DiscoJar/WIFIControl.cpp:106 | white space, an optional '+' or '-' and a run of digits followed by a non-digit or the end read as the digits' value, negated after '-', ending right after the digits |
| Numbers.ScanNoDigits | DiscoJar/WIFIControl.cpp:106 | with no digit after the white space and an optional sign, `%d` fails |
| Numbers.Decimal | DiscoJar/WIFIControl.cpp:212 | the text appended for a length is a non-empty string of decimal digits |
| Numbers.DecimalValue | DiscoJar/WIFIControl.cpp:212 | the digits appended for `n` have the value `n` |
| Numbers.ScanDecimal | DiscoJar/WIFIControl.cpp:106 | `%d` applied where a decimal was written, followed by a non-digit or the end, reads back exactly that number and stops after it |
| Numbers.ScanStopsAtNul | DiscoJar/WIFIControl.cpp:252 | `%d` on the NUL-terminated line buffer gives what it gives on the frame alone: stale bytes after the NUL never matter |
| LineFramer.ReadTillEol | DiscoJar/WIFIControl.cpp:80-96 | one call keeps the buffer at 1024 bytes and the index in range |
| LineFramer.ReadTillEolReports | DiscoJar/WIFIControl.cpp:80-96 | no byte means no change; the index wraps on the 1024th byte and, with a body outstanding, the test then reads before the buffer; a frame ends exactly on ':' with a body outstanding or on LF after CR; a frame is the buffered bytes plus the new one, NUL-terminated, with the index reset |
| LineFramer.ReadFrame | DiscoJar/WIFIControl.cpp:248-249 | the busy loop returns a NUL-terminated frame of 1..1023 bytes with the index reset, consuming at least one byte; with no body outstanding it never reads before the buffer and every frame ends in CR LF |
| LineFramer.ReadFrameLeavesSuffix | DiscoJar/WIFIControl.cpp:248-249 | what is left after a frame is the stream minus the consumed bytes |
| LineFramer.ReadsLine | DiscoJar/WIFIControl.cpp:80-96 | from a reset index, a CR LF line at the front of the stream is read as exactly one frame, and the stream goes on right after it |
| Waiter.Scan | DiscoJar/WIFIControl.cpp:42-52 | the read stops after the first byte that completes the token, or at the deadline; no earlier point ends with the token |
| Waiter.Wait | DiscoJar/WIFIControl.cpp:35-58 | a completed wait keeps the buffer valid and the line index, and consumes from the front of the stream |
| Waiter.WaitReadsToFirstMatch | DiscoJar/WIFIControl.cpp:35-58 | the write past the buffer happens exactly when 1024 bytes arrive in time and none of the first 1023 completes the token; otherwise the wait reports success exactly when the bytes read end with the token, at the first point they do or else at the deadline, and leaves those bytes and a NUL at the front of the buffer |
| Lamp.Default | DiscoJar/WIFIControl.h:15-27 | mode SpectrumWithPlasma, brightness 32, colours red and green, spare bytes zero, decay 0.4f and gain 340.0f as their IEEE-754 bit patterns |
| Lamp.EncodeDecode | DiscoJar/WIFIControl.cpp:296-307 | `Decode`, the decode at the end of `readPost`, reads exactly the first 18 bytes of the buffer at fixed offsets: re-encoding what it decoded gives them back |
| Lamp.DecodeEncode | DiscoJar/WIFIControl.cpp:296-307 | `Decode` applied to the packet the page's script builds gives back the state it encoded |
| Lamp.DecodeReadsPrefix | DiscoJar/WIFIControl.cpp:296-307 | buffers that agree on their first 18 bytes decode alike |
| Page.Response | DiscoJar/WIFIControl.cpp:209-214 | the response's length is the status lines, the field name, the decimal length, the blank line and the content |
| Page.DeclaredLengthMatches | DiscoJar/WIFIControl.cpp:209-214 | a reader of the assembled response finds the status lines, reads `|content|` after `Content-Length:`, then the blank line, then exactly the content |
| Page.ChunkSizes | DiscoJar/WIFIControl.cpp:215-222 | `Chunks`, the lengths the send loop announces: every chunk carries 1..1024 bytes, all but the last exactly 1024, and together they carry the whole text |
| Page.ChunkCount | DiscoJar/WIFIControl.cpp:215-222 | the number of chunks is the text length divided by 1024, rounded up |
| Page.Handshakes | DiscoJar/WIFIControl.cpp:228-234 | one handshake outcome per chunk, each consuming from the front of the stream; each outcome comes from `SendHandshake`, which waits for the ready reply and, only when it came, for `SEND OK` |
| Page.ChunkEvents | DiscoJar/WIFIControl.cpp:228-232 | what is written is the text from the current position on, in order and without gaps |
| Page.ChunkEventsFollowReplies | DiscoJar/WIFIControl.cpp:217-238 | one request per chunk announcing that chunk's length on the given channel, with data written exactly for the chunks whose handshake succeeded |
| Page.ChunkEventsAllReady | DiscoJar/WIFIControl.cpp:228-232 | when every handshake succeeds, the position reaches the end of the text |
| Page.SendText | DiscoJar/WIFIControl.cpp:215-239 | the announced lengths are the chunking of the whole text, and what is written is a prefix of it |
| Page.SendTextDelivers | DiscoJar/WIFIControl.cpp:215-239 | every request goes to the given channel, and when the modem accepts every chunk it receives the whole text |
| Post.Initial | DiscoJar/WIFIControl.cpp:20-24 | power-on: zero counters, a zeroed post buffer, index 0, and the default lamp state |
| Post.ScanHeaders | DiscoJar/WIFIControl.cpp:244-258 | the header loop reads its frames from the front of the stream and ends with the index reset |
| Post.DeclaredLength | DiscoJar/WIFIControl.cpp:251-253 | lines that declare nothing leave `len` as it was |
| Post.ContentLengthLine | DiscoJar/WIFIControl.cpp:251-252 | a `Content-Length: ` line with a number sets `len` to that number, whatever it was before |
| Post.DeclaredLengthAppend | DiscoJar/WIFIControl.cpp:246-258 | the lines are read in order: what later lines declare starts from what earlier ones left |
| Post.LastLengthWins | DiscoJar/WIFIControl.cpp:246-258 | the last `Content-Length: ` line decides `len` when the lines after it declare nothing, whatever came before |
| Post.LengthLineIsHeader | DiscoJar/WIFIControl.cpp:248-254 | a `Content-Length: ` line that fits the buffer is read as one header frame, not the blank line |
| Post.LengthOfLine | DiscoJar/WIFIControl.cpp:251-253 | the prefix test and `%d` on the NUL-terminated buffer read the frame alone |
| Post.DeclaredLengthBlank | DiscoJar/WIFIControl.cpp:254-257 | the blank line that ends the headers declares nothing |
| Post.ScanBlankLine | DiscoJar/WIFIControl.cpp:254-257 | the blank line ends the scan, two bytes taken off `packageBytes` |
| Post.ScanWellFormed | DiscoJar/WIFIControl.cpp:244-258 | well-formed header lines, then the blank line: the scan reads exactly these lines, stops right after the blank one, and takes every line's length off `packageBytes` |
| Post.CopyN | DiscoJar/WIFIControl.cpp:268-272 | `n` stream bytes written from index `i` replace exactly `[i, i + n)` of the buffer |
| Post.CopyBody | DiscoJar/WIFIControl.cpp:266-272 | the copy waits forever exactly when it must run and the stream is short; otherwise it ends at `p` (or at once when it starts past it), fills exactly `[i, end)` from the stream and leaves the rest |
| Post.Deliver | DiscoJar/WIFIControl.cpp:261-288 | the buffer before the resume position is never overwritten; a carry leaves the lamp and body length alone and never moves the resume position back; a completion resets it and decodes the buffer |
| Post.DeliverStores | DiscoJar/WIFIControl.cpp:261-288 | for any delivery: the missing count is `len - min(len, packageBytes)` when positive, else 0; the copy runs from `bufferPos` to `min(len, packageBytes, 100)` or not at all; the resume position is the copy's end on a carry and 0 on completion, and the body length is the copy's end on completion |
| Post.DeliverCompletes | DiscoJar/WIFIControl.cpp:261-288 | from an empty post buffer, a delivery holding the rest of the body stores its first `min(len, 100)` bytes, leaves the bytes past 100 in the stream, and decodes |
| Post.DeliverCarries | DiscoJar/WIFIControl.cpp:261-280 | from an empty post buffer, a delivery holding part of the body stores it (up to index 100), records the shortfall and the resume position, and leaves the lamp alone |
| Post.DeliverSkipsContinuation | DiscoJar/WIFIControl.cpp:261-288 | a continuation whose missing count is at most `bufferPos` stores nothing and reads nothing, and is declared complete on the stale buffer |
| Post.ReceivePost | DiscoJar/WIFIControl.cpp:242-288 | the core stays valid, the stream is consumed from the front, and a continuation reads no header lines |
| Post.ReceivesWholeBody | DiscoJar/WIFIControl.cpp:242-307 | with well-formed headers and the whole body in one delivery: the declared length governs, the first `min(len, 100)` bytes are stored, the rest stays in the stream, and the lamp decodes the buffer |
| Post.PacketArrives | DiscoJar/WIFIControl.cpp:242-307 | a 20-byte packet delivered whole is what the lamp decodes, and the stream goes on right after it |
| Post.PacketAfterLengthLine | DiscoJar/WIFIControl.cpp:242-307 | a request with one `Content-Length: 20` line and the 20-byte packet in one delivery: the lamp decodes the packet and the stream goes on right after it |
| Post.PostedStateArrives | DiscoJar/WIFIControl.cpp:242-307 | the packet the page posts, delivered whole, sets the lamp to exactly the state the page encoded |
| Post.ReceivesFirstPart | DiscoJar/WIFIControl.cpp:242-280 | the first part of a split body is stored at the front, the shortfall and resume position are carried, and the lamp is left alone |
| Post.ContinuationReadsNothing | DiscoJar/WIFIControl.cpp:244-288 | a continuation with no more missing than already stored reads nothing and decodes the buffer as it stands |
| Post.SplitPacketLosesTail | DiscoJar/WIFIControl.cpp:242-307 | a 20-byte packet split 12 + 8: the second part is never read, and the lamp decodes the first 12 bytes followed by old buffer contents |
| Post.Reply | DiscoJar/WIFIControl.cpp:309-326 | the acknowledgment keeps the buffer valid and the line index, and consumes from the front of the stream |
| Post.ReplyIsOneChunk | DiscoJar/WIFIControl.cpp:309-326 | the acknowledgment fits one chunk, so the reply is what the page's send loop does with it |
| Post.ReadPost | DiscoJar/WIFIControl.cpp:242-326 | the core stays valid, the stream is consumed from the front, and the only crash is the wait's overrun |
| Post.ReadPostAnswers | DiscoJar/WIFIControl.cpp:273-326 | a carried body answers nothing; a completed body is acknowledged exactly once, on the request's channel |
| Server.ParseIpd | DiscoJar/WIFIControl.cpp:106 | with no number after "+IPD," both values are the junk; otherwise the channel is the number read |
| Server.IpdHeader | DiscoJar/WIFIControl.cpp:105 | the header's length is the prefix, both decimals, the comma and the colon |
| Server.ParseIpdHeader | DiscoJar/WIFIControl.cpp:105-106 | whatever the junk, a buffer starting with a modem header reads back its channel and length |
| Server.ColonFrom | DiscoJar/WIFIControl.cpp:110-112 | the search finds the first ':' at or after the start, and runs off the end exactly when there is none, past the frame's NUL |
| Server.Compare | DiscoJar/WIFIControl.cpp:121 | the compare succeeds exactly when the bytes equal the literal, and reads past the buffer exactly when the buffer runs out while still agreeing |
| Server.ServeGet | DiscoJar/WIFIControl.cpp:121-127 | the GET branch changes only the line buffer, consumes from the front of the stream, and can only crash by the wait's overrun |
| Server.ServeGetSendsPage | DiscoJar/WIFIControl.cpp:121-127 | the GET branch announces the home page built around the HTML in its 1024-byte chunking, and writes a prefix of it |
| Server.PostTest | DiscoJar/WIFIControl.cpp:128-136 | the POST test either leaves the outcome as it was or crashes on an overrun; it hands on to `readPost` exactly when the buffer at `pb` reads "POST /", and then passes the core with `bufferPos` and `missingPostData` reset to 0, the frame's channel, the body length it was given, and what was sent before |
| Server.ReadHeader | DiscoJar/WIFIControl.cpp:104-112 | the frame is not a `+IPD` frame exactly when its first five bytes differ; a packet's `pb` is just after a ':', its length positive and its fields those parsed |
| Server.Dispatch | DiscoJar/WIFIControl.cpp:103-139 | a frame without the prefix, or whose length field does not read as positive, is dropped with nothing changed; the core stays valid and the stream is consumed from the front |
| Server.LoopWebServer | DiscoJar/WIFIControl.cpp:99-140 | no byte waiting means no change; the read before the buffer happens exactly on the 1024th byte of a POST continuation |
| Server.Steps | DiscoJar/WIFIControl.cpp:99-140 | repeated calls keep the core valid and consume the stream from the front |
| Server.StepsThroughFrame | DiscoJar/WIFIControl.cpp:80-103 | reading a frame byte by byte: the calls before its last byte do nothing else, and the last one dispatches the whole frame |
| Server.StepsToDispatch | DiscoJar/WIFIControl.cpp:80-103 | from a reset index, one call per byte of a frame ends in the dispatch of that frame from the filled buffer |
| Server.IgnoresOtherFrames | DiscoJar/WIFIControl.cpp:103-104 | a frame that does not start with "+IPD," is read and dropped: nothing is answered and only the line buffer changes |
| Server.HeaderIsFrame | DiscoJar/WIFIControl.cpp:85 | with a body outstanding, a modem header is framed at its colon |
| Server.ReadsHeader | DiscoJar/WIFIControl.cpp:104-112 | a buffer starting with a modem header reads as that packet, with `pb` just past its colon |
| Server.ForwardDispatches | DiscoJar/WIFIControl.cpp:113-118 | with a body outstanding, a header in the buffer dispatches to `readPost` with the packet's whole length |
| Server.ForwardsContinuation | DiscoJar/WIFIControl.cpp:113-118 | while a body is outstanding, the next packet's header is framed at its colon and `readPost` is called with the whole packet length |
| Server.PostDispatches | DiscoJar/WIFIControl.cpp:128-135 | a header then "POST /" in the buffer dispatches to `readPost` with the counters restarted and the packet length less the frame bytes after the header |
| Server.StartsPost | DiscoJar/WIFIControl.cpp:128-135 | a request line starting a POST restarts the body counters and hands `readPost` the packet length less the bytes of this line |
| Server.GetDispatches | DiscoJar/WIFIControl.cpp:121-127 | a header then "GET /" in the buffer sends the page: a failure to send is the outcome, and otherwise what is answered begins with the page's events |
| Server.ServesGet | DiscoJar/WIFIControl.cpp:121-127 | a request line starting a GET sends the page: a failure to send is the outcome, and otherwise what the call answers begins with the page |

## Left out

- Bring-up (`setupWebServer`, `setupWiFi`, WIFIControl.cpp:60-78 and 329 on): this is one-off AT configuration with nothing to return.
- Clock: `millis()` is not modelled. Each bounded wait is instead given the number of bytes that arrive before its deadline (`Waiter.Io.windows`), and a wait beyond the listed windows sees none.
- Busy-waits on the serial port: the `read_till_eol` loop of `readPost` and the wait for each body byte never end on an empty stream. They are the `Blocked` outcome (`ReadFrame`'s `Starved`, `CopyStarved`, `ScanStarved`) rather than a precondition.
- Undefined behaviour: the accesses outside the line buffer are not given a meaning. They are the outcome `Crashed(Fault)`, and what the hardware would then do is not modelled.
- Uninitialised locals: their indeterminate values are a parameter, `Server.Junk`. The model does not pick any particular value.
- Floats: `decay` and `gain` are kept as the raw 32-bit little-endian words. Float arithmetic and the unaligned `float*` access are not modelled.
- The HTML literal: it is a byte-sequence parameter, `html`, and `Page.HomePage` builds the response around it. The page's text is not transcribed.
- AT command text: `AT+CIPSEND=<ch>,<len>` and `AT+CIPCLOSE=<ch>` are modelled as `Page.Event`s with their channel and announced length. The exact characters written to the modem are not modelled.
- Page.SendText: all handshakes of a send are followed before the data, because what the modem answers does not depend on the bytes written. Their interleaving in time with the writes is not modelled.
- Debug printing (`PRINT_DEBUG`) and the USB serial port: left out because they have no effect on the protocol.
- ScanInt: keeps the exact integer read. `%d` stores into a 32-bit `int`, where an out-of-range value is undefined behaviour. `len`, `packageBytes` and `missingPostData` are likewise unbounded, so a `Content-Length` beyond 2^31 - 1 carries a value no device state holds.
- Server.ServesGet: states that what is answered begins with the page's events. It does not state the POST test that follows on the buffer `waitForResponse` overwrote; that test is `Server.PostTest` and `Server.GetDispatches`.
- getWebServerState: it returns a reference to `_state`, which here is the `lamp` field of `Post.Core`.

=== FILE: bytes.dfy ===
/** Bytes as they travel between the modem and the sketch, and the
    8-bit string literals the protocol compares them with. */
module Bytes {

  /** An unsigned 8-bit value: one byte of the serial stream or of a buffer. */
  type byte = x: int | 0 <= x < 256

  datatype Option<T> = None | Some(value: T)

  const NUL: byte := 0
  const LF: byte := 10
  const CR: byte := 13
  const Comma: byte := 44
  const Colon: byte := 58

  /** The bytes of a string literal written in the sketch, one 8-bit
      `char` per character. */
  function Ascii(s: string): (r: seq<byte>)
    ensures |r| == |s|
    ensures forall k :: 0 <= k < |s| ==> r[k] == s[k] as int % 256
  {
    seq(|s|, k requires 0 <= k < |s| => s[k] as int % 256)
  }

  /** A C string literal: no NUL among its bytes, so `strncmp` against it
      agrees with plain byte equality. */
  predicate NoNul(s: seq<byte>) {
    forall k :: 0 <= k < |s| ==> s[k] != NUL
  }
}

=== FILE: lamp.dfy ===
/** The lamp configuration (`State` of WIFIControl.h), its documented
    defaults, and the 20-byte packet that carries it in a POST body. */
module Lamp {
  import opened Bytes

  // Effect modes.
  const Spectrum: byte := 0
  const SpectrumWithPlasma: byte := 1
  const Plasma: byte := 2
  const Confetti: byte := 3
  const Gradient: byte := 4

  /** A 32-bit word: the raw bit pattern of a `float` field. */
  type word = x: int | 0 <= x < 0x1_0000_0000

  /** IEEE-754 single-precision bit patterns of the default decay and gain. */
  const DecayBits: word := 0x3ECC_CCCD  // 0.4f
  const GainBits: word := 0x43AA_0000   // 340.0f

  datatype Rgb = Rgb(r: byte, g: byte, b: byte)

  /** The live configuration read by the renderer. Every field is a byte
      except `decay` and `gain`, kept as the bits of their 32-bit floats. */
  datatype State = State(
    mode: byte,
    brightness: byte,
    color0: Rgb,
    color1: Rgb,
    param0: byte,
    param1: byte,
    decay: word,
    gain: word)

  /** The state the sketch starts with. The constructor leaves `param0` and
      `param1` alone; `_state` is a global, so they start out zero. */
  function Default(): (s: State)
    ensures s.mode == SpectrumWithPlasma && s.brightness == 32
    ensures s.color0 == Rgb(255, 0, 0) && s.color1 == Rgb(0, 255, 0)
    ensures s.param0 == 0 && s.param1 == 0
    ensures s.decay == DecayBits && s.gain == GainBits
  {
    State(SpectrumWithPlasma, 32, Rgb(255, 0, 0), Rgb(0, 255, 0), 0, 0, DecayBits, GainBits)
  }

  /** Four bytes read as a little-endian word. */
  function LeWord(b: seq<byte>): (w: word)
    requires |b| == 4
  {
    b[0] as int + 256 * (b[1] as int + 256 * (b[2] as int + 256 * b[3] as int))
  }

  /** A word laid out as four little-endian bytes. */
  function LeBytes(w: word): (b: seq<byte>)
    ensures |b| == 4
  {
    [w % 256, (w / 256) % 256, (w / 256 / 256) % 256, w / 256 / 256 / 256]
  }

  /** Splitting off the low byte of `lo + 256 * q`. */
  lemma LowByte(lo: int, q: int)
    requires 0 <= lo < 256
    ensures (lo + 256 * q) % 256 == lo && (lo + 256 * q) / 256 == q
  {
  }

  lemma LeWordOfBytes(w: word)
    ensures LeWord(LeBytes(w)) == w
  {
    var q1 := w / 256;
    var q2 := q1 / 256;
    assert w == w % 256 + 256 * q1;
    assert q1 == q1 % 256 + 256 * q2;
    assert q2 == q2 % 256 + 256 * (q2 / 256);
  }

  lemma LeBytesOfWord(b: seq<byte>)
    requires |b| == 4
    ensures LeBytes(LeWord(b)) == b
  {
    var t2 := b[2] as int + 256 * b[3] as int;
    var t1 := b[1] as int + 256 * t2;
    LowByte(b[0], t1);
    LowByte(b[1], t2);
    LowByte(b[2], b[3]);
  }

  /** Size of the packet the control page posts. */
  const PacketSize := 20

  /** Number of leading packet bytes the decoder reads. */
  const DecodedSize := 18

  /** The layout of the body the control page's script builds: ten single
      bytes, then decay and gain as little-endian floats at offsets 10 and
      14, then two unused, zeroed bytes of the 20-byte ArrayBuffer. The
      script itself always writes 47 and 11 into bytes 8 and 9, so the
      states it posts have `param0 == 47` and `param1 == 11`; here the two
      bytes come from the state, so that every state has a packet. */
  function Encode(s: State): (b: seq<byte>)
    ensures |b| == PacketSize
  {
    [s.mode, s.brightness, s.color0.r, s.color0.g, s.color0.b,
     s.color1.r, s.color1.g, s.color1.b, s.param0, s.param1]
    + LeBytes(s.decay) + LeBytes(s.gain) + [0, 0]
  }

  /** The decode at the end of `readPost`: fixed offsets, no range check on
      any field (a mode above `Gradient` is accepted as is). */
  function Decode(buf: seq<byte>): (s: State)
    requires |buf| >= DecodedSize
  {
    State(buf[0], buf[1], Rgb(buf[2], buf[3], buf[4]), Rgb(buf[5], buf[6], buf[7]),
          buf[8], buf[9], LeWord(buf[10..14]), LeWord(buf[14..18]))
  }

  /** Every state comes out of some packet, and the decoder reads exactly
      the first 18 bytes: re-encoding what it decoded gives them back. */
  lemma EncodeDecode(buf: seq<byte>)
    requires |buf| >= DecodedSize
    ensures Encode(Decode(buf))[..DecodedSize] == buf[..DecodedSize]
  {
    LeBytesOfWord(buf[10..14]);
    LeBytesOfWord(buf[14..18]);
  }

  /** Decoding what the page encoded gives back the state it encoded. */
  lemma DecodeEncode(s: State)
    ensures Decode(Encode(s)) == s
  {
    var b := Encode(s);
    assert b[10..14] == LeBytes(s.decay);
    assert b[14..18] == LeBytes(s.gain);
    LeWordOfBytes(s.decay);
    LeWordOfBytes(s.gain);
  }

  /** Only the first 18 bytes of the body buffer reach the state. */
  lemma DecodeReadsPrefix(a: seq<byte>, b: seq<byte>)
    requires |a| >= DecodedSize && |b| >= DecodedSize
    requires a[..DecodedSize] == b[..DecodedSize]
    ensures Decode(a) == Decode(b)
  {
    assert a[10..14] == b[10..14];
    assert a[14..18] == b[14..18];
  }
}

=== FILE: line.dfy ===
/** `read_till_eol`: the one-byte-per-call frame accumulator over the shared
    1024-byte line buffer, and the busy loop that calls it until a frame
    is complete. */
module LineFramer {
  import opened Bytes

  const BufferSize := 1024

  /** The shared `buffer` and the static index `i` of `read_till_eol`. */
  datatype Line = Line(buf: seq<byte>, idx: int)

  predicate ValidLine(l: Line) {
    |l.buf| == BufferSize && 0 <= l.idx < BufferSize
  }

  /** What one call reports: no byte was available, a byte was buffered
      without completing a frame, a frame of `len` bytes is complete, or the
      terminator test read `buffer[-1]` (the index had just wrapped to 0
      while a POST body is outstanding). */
  datatype Poll = NoByte | Partial | Frame(len: nat) | ReadBeforeBuffer

  datatype Tick = Tick(line: Line, poll: Poll)

  /** One call of `read_till_eol` with `missing` the current
      `missingPostData`; it consumes `input[0]` unless the poll is `NoByte`.
      What it reports is stated by `ReadTillEolReports`. */
  function ReadTillEol(l: Line, missing: int, input: seq<byte>): (r: Tick)
    requires ValidLine(l)
    ensures ValidLine(r.line)
  {
    if |input| == 0 then Tick(l, NoByte)
    else
      var w := l.buf[l.idx := input[0]];
      var i := if l.idx + 1 == BufferSize then 0 else l.idx + 1;
      if missing > 0 && i == 0 then Tick(Line(w, i), ReadBeforeBuffer)
      else if (missing > 0 && w[i - 1] == Colon) || (i > 1 && w[i - 2] == CR && w[i - 1] == LF) then
        Tick(Line(w[i := NUL], 0), Frame(i))
      else
        Tick(Line(w, i), Partial)
  }

  /** What one call reports and leaves in the buffer. */
  lemma ReadTillEolReports(l: Line, missing: int, input: seq<byte>)
    requires ValidLine(l)
    ensures var r := ReadTillEol(l, missing, input);
      && (r.poll == NoByte <==> |input| == 0)
      && (r.poll == NoByte ==> r.line == l)
      // The index wraps to 0 on the 1024th byte; with a body outstanding the
      // terminator test then reads before the buffer.
      && (r.poll == ReadBeforeBuffer <==> |input| > 0 && missing > 0 && l.idx == BufferSize - 1)
      // A frame ends exactly on a ':' while a body is outstanding, or on a LF
      // that follows a buffered CR, and never on the byte that wraps the index.
      && (|input| > 0 ==>
          (r.poll.Frame? <==>
             l.idx < BufferSize - 1
             && ((missing > 0 && input[0] == Colon)
                 || (l.idx >= 1 && l.buf[l.idx - 1] == CR && input[0] == LF))))
      // A frame is everything buffered since the last reset plus the new
      // byte; it is NUL-terminated and the index restarts at 0.
      && (r.poll.Frame? ==>
          && r.poll.len == l.idx + 1
          && r.line.idx == 0
          && r.line.buf[..r.poll.len] == l.buf[..l.idx] + [input[0]]
          && r.line.buf[r.poll.len] == NUL)
      && (r.poll == Partial ==>
          && r.line.buf == l.buf[l.idx := input[0]]
          && r.line.idx == (l.idx + 1) % BufferSize)
  {
  }

  /** The outcome of calling `read_till_eol` until it reports a frame. */
  datatype Framed =
    | Framed(line: Line, len: nat, rest: seq<byte>)
    | Starved          // input ran out first: the busy loop never ends
    | Underflow        // the terminator test read before the buffer

  /** The busy loop that polls `read_till_eol` until it completes a frame:
      the bytes it consumes, the frame length it reports, or the stream
      running dry before a terminator. */
  function ReadFrame(l: Line, missing: int, input: seq<byte>): (r: Framed)
    requires ValidLine(l)
    ensures r.Framed? ==>
      && ValidLine(r.line) && r.line.idx == 0
      && 1 <= r.len < BufferSize
      && r.line.buf[r.len] == NUL
      && |r.rest| < |input|
    // Without a body outstanding only CR LF ends a frame, and the test never
    // reads before the buffer.
    ensures missing <= 0 ==> !r.Underflow?
    ensures missing <= 0 && r.Framed? ==>
      r.len >= 2 && r.line.buf[r.len - 2] == CR && r.line.buf[r.len - 1] == LF
    decreases |input|
  {
    var t := ReadTillEol(l, missing, input);
    ReadTillEolReports(l, missing, input);
    match t.poll
    case NoByte => Starved
    case ReadBeforeBuffer => Underflow
    case Frame(n) => Framed(t.line, n, input[1..])
    case Partial =>
      match ReadFrame(t.line, missing, input[1..])
      case Framed(line', n, rest) => Framed(line', n, rest)
      case Starved => Starved
      case Underflow => Underflow
  }

  /** A frame is read from the front of the stream: what is left over is
      the stream minus the bytes the frame consumed. */
  lemma {:induction false} ReadFrameLeavesSuffix(l: Line, missing: int, input: seq<byte>)
    requires ValidLine(l)
    ensures var r := ReadFrame(l, missing, input);
      r.Framed? ==> r.rest == input[|input| - |r.rest|..]
    decreases |input|
  {
    var t := ReadTillEol(l, missing, input);
    ReadTillEolReports(l, missing, input);
    if t.poll == Partial {
      ReadFrameLeavesSuffix(t.line, missing, input[1..]);
      var r := ReadFrame(t.line, missing, input[1..]);
      if r.Framed? {
        assert input[1..][|input| - 1 - |r.rest|..] == input[|input| - |r.rest|..];
      }
    }
  }

  /** A header line as the framer sees it: ends in CR LF, holds no earlier
      CR LF, and fits the buffer without wrapping the index. */
  predicate IsLine(h: seq<byte>) {
    && 2 <= |h| < BufferSize
    && CrlfEndsAt(h, |h|)
    && forall k :: 2 <= k < |h| ==> !CrlfEndsAt(h, k)
  }

  /** The `k` bytes at the front of `h` end in CR LF. */
  predicate CrlfEndsAt(h: seq<byte>, k: int) {
    2 <= k <= |h| && h[k - 2] == CR && h[k - 1] == LF
  }

  /** Starting `m` bytes into a line, with those bytes already buffered, the
      busy loop returns exactly that line as the next frame. */
  lemma {:induction false} ReadsLineFrom(l: Line, missing: int, h: seq<byte>, m: nat, rest: seq<byte>)
    requires ValidLine(l) && missing <= 0 && IsLine(h)
    requires m < |h| && l.idx == m && l.buf[..m] == h[..m]
    ensures var r := ReadFrame(l, missing, h[m..] + rest);
      && r.Framed? && r.len == |h| && r.rest == rest
      && r.line.idx == 0 && r.line.buf[..|h|] == h
    decreases |h| - m
  {
    var input := h[m..] + rest;
    var t := ReadTillEol(l, missing, input);
    ReadTillEolReports(l, missing, input);
    assert input[0] == h[m];
    if m + 1 == |h| {
      assert t.poll.Frame?;
      assert h[..m] + [h[m]] == h;
      assert input[1..] == rest;
    } else {
      assert !CrlfEndsAt(h, m + 1);
      assert t.poll == Partial;
      assert t.line.buf[..m + 1] == h[..m + 1];
      assert input[1..] == h[m + 1..] + rest;
      ReadsLineFrom(t.line, missing, h, m + 1, rest);
    }
  }

  /** From a freshly reset index, the next frame is the first line. */
  lemma {:induction false} ReadsLine(l: Line, missing: int, h: seq<byte>, rest: seq<byte>)
    requires ValidLine(l) && l.idx == 0 && missing <= 0 && IsLine(h)
    ensures var r := ReadFrame(l, missing, h + rest);
      && r.Framed? && r.len == |h| && r.rest == rest
      && r.line.idx == 0 && r.line.buf[..|h|] == h && r.line.buf[|h|] == NUL
  {
    assert h[0..] == h;
    ReadsLineFrom(l, missing, h, 0, rest);
  }
}

=== FILE: numbers.dfy ===
/** Decimal integers on the wire: the `%d` conversion of `sscanf` that reads
    the `+IPD` lengths and the `Content-Length` value, and the decimal text
    Arduino's `String` appends for an `int`. */
module Numbers {
  import opened Bytes

  /** The bytes `isspace` accepts: space, TAB, LF, VT, FF, CR. */
  predicate IsSpace(b: byte) {
    b == 32 || 9 <= b <= 13
  }

  predicate IsDigit(b: byte) {
    48 <= b <= 57
  }

  predicate AllDigits(d: seq<byte>) {
    forall k :: 0 <= k < |d| ==> IsDigit(d[k])
  }

  /** Index of the first byte at or after `k` that is not white space. */
  function SkipSpace(s: seq<byte>, k: nat): (j: nat)
    requires k <= |s|
    ensures k <= j <= |s|
    ensures forall m :: k <= m < j ==> IsSpace(s[m])
    ensures j < |s| ==> !IsSpace(s[j])
    decreases |s| - k
  {
    if k < |s| && IsSpace(s[k]) then SkipSpace(s, k + 1) else k
  }

  /** Index just past the run of digits that starts at `k`. */
  function DigitRun(s: seq<byte>, k: nat): (j: nat)
    requires k <= |s|
    ensures k <= j <= |s|
    ensures forall m :: k <= m < j ==> IsDigit(s[m])
    ensures j < |s| ==> !IsDigit(s[j])
    decreases |s| - k
  {
    if k < |s| && IsDigit(s[k]) then DigitRun(s, k + 1) else k
  }

  /** The value of a string of decimal digits, most significant first. */
  function DigitsValue(d: seq<byte>): (v: nat)
    requires AllDigits(d)
  {
    if d == [] then 0 else DigitsValue(d[..|d| - 1]) * 10 + (d[|d| - 1] - 48)
  }

  /** `sscanf`'s `%d` applied at index `k` of `s`: skip white space, take an
      optional sign and a maximal run of digits. `Some((v, e))` gives the value
      and the index just past the digits; `None` when no digit follows. */
  function ScanInt(s: seq<byte>, k: nat): (r: Option<(int, nat)>)
    requires k <= |s|
    ensures r.Some? ==> k < r.value.1 <= |s| && IsDigit(s[r.value.1 - 1])
    ensures r.Some? ==> r.value.1 == |s| || !IsDigit(s[r.value.1])
  {
    ScanSigned(s, SkipSpace(s, k))
  }

  /** The part of `%d` after the white space: an optional sign at `j`, then
      the digits. */
  function ScanSigned(s: seq<byte>, j: nat): (r: Option<(int, nat)>)
    requires j <= |s|
    ensures r.Some? ==> j < r.value.1 <= |s| && IsDigit(s[r.value.1 - 1])
    ensures r.Some? ==> r.value.1 == |s| || !IsDigit(s[r.value.1])
  {
    var signed := j < |s| && (s[j] == 43 || s[j] == 45);
    var d := if signed then j + 1 else j;
    var e := DigitRun(s, d);
    if e == d then None
    else
      var v: int := DigitsValue(s[d..e]);
      Some((if signed && s[j] == 45 then -v else v, e))
  }

  /** The decimal text of `n`, as `String::operator+=(int)` appends it. */
  function Decimal(n: nat): (r: seq<byte>)
    ensures 1 <= |r|
    ensures AllDigits(r)
  {
    if n < 10 then [48 + n] else Decimal(n / 10) + [48 + n % 10]
  }

  lemma {:induction false} DecimalValue(n: nat)
    ensures DigitsValue(Decimal(n)) == n
  {
    if n >= 10 {
      DecimalValue(n / 10);
      var d := Decimal(n);
      assert d[..|d| - 1] == Decimal(n / 10);
    }
  }

  lemma {:induction false} SkipSpaceUnique(s: seq<byte>, k: nat, j: nat)
    requires k <= j <= |s|
    requires forall m :: k <= m < j ==> IsSpace(s[m])
    requires j == |s| || !IsSpace(s[j])
    ensures SkipSpace(s, k) == j
  {
  }

  lemma {:induction false} DigitRunUnique(s: seq<byte>, k: nat, j: nat)
    requires k <= j <= |s|
    requires forall m :: k <= m < j ==> IsDigit(s[m])
    requires j == |s| || !IsDigit(s[j])
    ensures DigitRun(s, k) == j
  {
  }

  /** Reading back a decimal: `%d` applied where `Decimal(n)` was written, and
      followed by a non-digit or the end, yields exactly `n`. */
  lemma {:induction false} ScanDecimal(s: seq<byte>, k: nat, n: nat)
    requires k + |Decimal(n)| <= |s|
    requires s[k..k + |Decimal(n)|] == Decimal(n)
    requires k + |Decimal(n)| == |s| || !IsDigit(s[k + |Decimal(n)|])
    ensures ScanInt(s, k) == Some((n as int, k + |Decimal(n)|))
  {
    var d := Decimal(n);
    var e := k + |d|;
    assert s[k] == d[0];
    SkipSpaceUnique(s, k, k);
    forall m | k <= m < e
      ensures IsDigit(s[m])
    {
      assert s[m] == d[m - k];
    }
    DigitRunUnique(s, k, e);
    DecimalValue(n);
  }

  /** The signs `%d` accepts in front of the digits: none, '+' or '-'. */
  predicate IsSign(sg: seq<byte>) {
    sg == [] || sg == [43] || sg == [45]
  }

  predicate AllSpace(ws: seq<byte>) {
    forall k :: 0 <= k < |ws| ==> IsSpace(ws[k])
  }

  /** `%d` in general: white space, an optional sign and a run of digits
      that ends at a non-digit or at the end read as the digits' value,
      negated after '-', and the scan stops right after the digits. */
  lemma {:induction false} ScanSignedDigits(s: seq<byte>, k: nat, ws: seq<byte>, sg: seq<byte>, d: seq<byte>)
    requires AllSpace(ws) && IsSign(sg) && |d| > 0 && AllDigits(d)
    requires k + |ws| + |sg| + |d| <= |s|
    requires s[k..k + |ws| + |sg| + |d|] == ws + sg + d
    requires k + |ws| + |sg| + |d| == |s| || !IsDigit(s[k + |ws| + |sg| + |d|])
    ensures ScanInt(s, k) ==
      Some((if sg == [45] then -(DigitsValue(d) as int) else DigitsValue(d) as int, k + |ws| + |sg| + |d|))
  {
    var j := k + |ws|;
    var t := ws + sg + d;
    forall m | k <= m < j
      ensures IsSpace(s[m])
    {
      ByteAt(s, k, t, m);
    }
    ByteAt(s, k, t, j);
    SkipSpaceUnique(s, k, j);
    forall m | j <= m < j + |sg| + |d|
      ensures s[m] == (sg + d)[m - j]
    {
      ByteAt(s, k, t, m);
    }
    SignThenDigits(s, j, sg, d);
  }

  /** The part after the white space: an optional sign, then the digits. */
  lemma SignThenDigits(s: seq<byte>, j: nat, sg: seq<byte>, d: seq<byte>)
    requires IsSign(sg) && |d| > 0 && AllDigits(d)
    requires j + |sg| + |d| <= |s|
    requires forall m :: j <= m < j + |sg| + |d| ==> s[m] == (sg + d)[m - j]
    requires j + |sg| + |d| == |s| || !IsDigit(s[j + |sg| + |d|])
    ensures ScanSigned(s, j) ==
      Some((if sg == [45] then -(DigitsValue(d) as int) else DigitsValue(d) as int, j + |sg| + |d|))
  {
    var b := j + |sg|;
    var e := b + |d|;
    assert s[b] == (sg + d)[|sg|];
    if sg != [] {
      assert s[j] == (sg + d)[0];
    }
    forall m | b <= m < e
      ensures IsDigit(s[m]) && s[m] == d[m - b]
    {
      assert s[m] == (sg + d)[m - j];
    }
    DigitRunUnique(s, b, e);
    assert s[b..e] == d;
    ScanSignedUnfold(s, j, b, e);
  }

  /** `ScanSigned` once the sign position `b` and the end of the digits `e`
      are known. */
  lemma ScanSignedUnfold(s: seq<byte>, j: nat, b: nat, e: nat)
    requires b == (if j < |s| && (s[j] == 43 || s[j] == 45) then j + 1 else j)
    requires b < e <= |s| && DigitRun(s, b) == e
    ensures ScanSigned(s, j) ==
      Some((if j < |s| && s[j] == 45 then -(DigitsValue(s[b..e]) as int) else DigitsValue(s[b..e]) as int, e))
  {
  }

  /** A byte of `s` inside a stretch known to equal `t`. */
  lemma ByteAt(s: seq<byte>, k: nat, t: seq<byte>, m: nat)
    requires k + |t| <= |s| && s[k..k + |t|] == t && k <= m < k + |t|
    ensures s[m] == t[m - k]
  {
    assert s[m] == s[k..k + |t|][m - k];
  }

  /** `%d` fails when no digit follows the white space and the optional
      sign: the variable it was to set keeps its old value. */
  lemma {:induction false} ScanNoDigits(s: seq<byte>, k: nat, ws: seq<byte>, sg: seq<byte>)
    requires AllSpace(ws) && IsSign(sg)
    requires k + |ws| + |sg| <= |s|
    requires s[k..k + |ws| + |sg|] == ws + sg
    requires k + |ws| + |sg| == |s| || !IsDigit(s[k + |ws| + |sg|])
    // without a sign, what follows the white space is not more of it, nor a sign
    requires sg == [] && k + |ws| < |s| ==>
      var x := s[k + |ws|]; !IsSpace(x) && x != 43 && x != 45
    ensures ScanInt(s, k) == None
  {
    var j := k + |ws|;
    forall m | k <= m < j
      ensures IsSpace(s[m])
    {
      assert s[m] == s[k..j + |sg|][m - k];
    }
    if sg != [] {
      assert s[j] == s[k..j + |sg|][|ws|];
    }
    SkipSpaceUnique(s, k, j);
    var d := if sg == [] then j else j + 1;
    DigitRunUnique(s, d, d);
  }

  /** With `h` written at the front of `buf` and a NUL after it, the white
      space and the digit runs of `buf` are those of `h`: NUL is neither. */
  lemma {:induction false} SkipSpaceStopsAtNul(buf: seq<byte>, h: seq<byte>, k: nat)
    requires k <= |h| < |buf|
    requires buf[..|h|] == h && buf[|h|] == NUL
    ensures SkipSpace(buf, k) == SkipSpace(h, k) <= |h|
  {
    var j := SkipSpace(buf, k);
    assert j <= |h|;
    forall m | k <= m < j
      ensures IsSpace(h[m])
    {
      assert h[m] == buf[m];
    }
    if j < |h| {
      assert h[j] == buf[j];
    }
    SkipSpaceUnique(h, k, j);
  }

  lemma {:induction false} DigitRunStopsAtNul(buf: seq<byte>, h: seq<byte>, k: nat)
    requires k <= |h| < |buf|
    requires buf[..|h|] == h && buf[|h|] == NUL
    ensures DigitRun(buf, k) == DigitRun(h, k) <= |h|
  {
    var j := DigitRun(buf, k);
    assert j <= |h|;
    forall m | k <= m < j
      ensures IsDigit(h[m])
    {
      assert h[m] == buf[m];
    }
    if j < |h| {
      assert h[j] == buf[j];
    }
    DigitRunUnique(h, k, j);
  }

  lemma SignedStopsAtNul(buf: seq<byte>, h: seq<byte>, j: nat)
    requires j <= |h| < |buf|
    requires buf[..|h|] == h && buf[|h|] == NUL
    ensures ScanSigned(buf, j) == ScanSigned(h, j)
  {
    if j < |h| {
      assert h[j] == buf[j];
    }
    var signed := j < |buf| && (buf[j] == 43 || buf[j] == 45);
    var d := if signed then j + 1 else j;
    DigitRunStopsAtNul(buf, h, d);
    var e := DigitRun(buf, d);
    assert buf[d..e] == h[d..e] by {
      forall m | 0 <= m < e - d
        ensures buf[d..e][m] == h[d..e][m]
      {
        assert buf[d + m] == buf[..|h|][d + m];
      }
    }
  }

  /** `%d` reads a C string: bytes past its terminating NUL never matter.
      With `h` written at the front of `buf` and a NUL after it, scanning
      `buf` gives what scanning `h` alone gives. */
  lemma ScanStopsAtNul(buf: seq<byte>, h: seq<byte>, k: nat)
    requires k <= |h| < |buf|
    requires buf[..|h|] == h && buf[|h|] == NUL
    ensures ScanInt(buf, k) == ScanInt(h, k)
  {
    SkipSpaceStopsAtNul(buf, h, k);
    SignedStopsAtNul(buf, h, SkipSpace(buf, k));
  }
}

=== FILE: page.dfy ===
/** `serveHomePage`: the response header with its Content-Length, and the
    loop that hands header and page to the modem in chunks of at most
    1024 bytes. The page itself is an opaque byte sequence. */
module Page {
  import opened Bytes
  import opened Numbers
  import opened LineFramer
  import opened Waiter

  const StatusLines: seq<byte> :=
    Ascii("HTTP/1.1 200 OK\r\nContent-Type: text/html\r\nConnection: close\r\n")
  const LengthField: seq<byte> := Ascii("Content-Length:")
  const HeaderEnd: seq<byte> := [CR, LF, CR, LF]

  /** The largest chunk one `AT+CIPSEND` carries. */
  const ChunkMax := 1024

  /** A response as the sketch assembles it: the status lines, the
      Content-Length field holding the decimal length of `content`, a blank
      line, then `content`. The POST reply is the same with no content. */
  function Response(content: seq<byte>): (r: seq<byte>)
    ensures |r| == |StatusLines| + |LengthField| + |Decimal(|content|)| + |HeaderEnd| + |content|
  {
    StatusLines + LengthField + Decimal(|content|) + HeaderEnd + content
  }

  /** The page body: the HTML followed by CR LF. */
  function PageContent(html: seq<byte>): (c: seq<byte>)
    ensures |c| == |html| + 2 && c[..|html|] == html
  {
    html + [CR, LF]
  }

  /** What `serveHomePage` sends for the HTML literal `html`: the response
      whose content is the page. */
  function HomePage(html: seq<byte>): (r: seq<byte>) {
    Response(PageContent(html))
  }

  /** The declared length is the content's length: a reader that parses the
      digits after `Content-Length:` gets `|content|`, they are followed by the
      blank line, and `content` is exactly what comes after it. */
  lemma {:induction false} DeclaredLengthMatches(content: seq<byte>)
    ensures var r := Response(content);
      var head := StatusLines + LengthField;
      var dec := Decimal(|content|);
      && r[..|head|] == head
      && ScanInt(r, |head|) == Some((|content| as int, |head| + |dec|))
      && r[|head| + |dec|..|head| + |dec| + |HeaderEnd|] == HeaderEnd
      && r[|head| + |dec| + |HeaderEnd|..] == content
  {
    Parts(StatusLines + LengthField, Decimal(|content|), HeaderEnd, content);
    ScanField(StatusLines + LengthField, |content|, HeaderEnd, content);
  }

  /** `%d` at the start of a decimal field reads its value when a non-digit
      follows it. */
  lemma ScanField(head: seq<byte>, n: nat, sep: seq<byte>, tail: seq<byte>)
    requires |sep| > 0 && !IsDigit(sep[0])
    ensures ScanInt(head + Decimal(n) + sep + tail, |head|) == Some((n as int, |head| + |Decimal(n)|))
  {
    var s := head + Decimal(n) + sep + tail;
    Parts(head, Decimal(n), sep, tail);
    assert s[|head| + |Decimal(n)|] == sep[0];
    ScanDecimal(s, |head|, n);
  }

  /** Where each part of a four-part concatenation lies. */
  lemma Parts(a: seq<byte>, b: seq<byte>, c: seq<byte>, d: seq<byte>)
    ensures var r := a + b + c + d;
      && r[..|a|] == a
      && r[|a|..|a| + |b|] == b
      && r[|a| + |b|..|a| + |b| + |c|] == c
      && r[|a| + |b| + |c|..] == d
  {
  }

  function Sum(cs: seq<nat>): (n: nat) {
    if cs == [] then 0 else cs[0] + Sum(cs[1..])
  }

  /** The chunk lengths the send loop uses for `full` bytes. */
  function Chunks(full: nat): (cs: seq<nat>)
    decreases full
  {
    if full == 0 then []
    else
      var cur := if full > ChunkMax then ChunkMax else full;
      [cur] + Chunks(full - cur)
  }

  /** Every chunk carries 1..1024 bytes, all but the last exactly 1024, and
      together they carry `full` bytes. */
  lemma {:induction false} ChunkSizes(full: nat)
    ensures var cs := Chunks(full);
      && (forall k :: 0 <= k < |cs| ==> 1 <= cs[k] <= ChunkMax)
      && (forall k :: 0 <= k < |cs| - 1 ==> cs[k] == ChunkMax)
      && Sum(cs) == full
    decreases full
  {
    if full > 0 {
      var cur := if full > ChunkMax then ChunkMax else full;
      ChunkSizes(full - cur);
      var cs := Chunks(full);
      assert cs == [cur] + Chunks(full - cur);
      assert cs[1..] == Chunks(full - cur);
    }
  }

  /** As many chunks as it takes to cover `full` bytes with 1024-byte ones. */
  lemma {:induction false} ChunkCount(full: nat)
    ensures |Chunks(full)| == (full + ChunkMax - 1) / ChunkMax
    decreases full
  {
    if full > ChunkMax {
      ChunkCount(full - ChunkMax);
    }
  }

  /** What the modem is asked to do per chunk: send `data`, or, when its
      send-ready acknowledgment did not come, close the connection after
      announcing `announced` bytes. */
  datatype Event =
    | Sent(channel: int, data: seq<byte>)
    | Refused(channel: int, announced: nat)

  function Announced(e: Event): (n: nat) {
    match e
    case Sent(_, data) => |data|
    case Refused(_, n) => n
  }

  /** All bytes actually written to the modem, in order. */
  function SentBytes(es: seq<Event>): (bs: seq<byte>) {
    if es == [] then []
    else (if es[0].Sent? then es[0].data else []) + SentBytes(es[1..])
  }

  datatype Handshake =
    | Handshake(ready: bool, line: Line, io: Io)
    | HandshakeOverflow

  /** The waits around one `AT+CIPSEND`: for the send-ready acknowledgment
      (the default token), and only when it came, for `SEND OK` after the
      data is written. */
  function SendHandshake(line: Line, io: Io): (r: Handshake)
    requires ValidLine(line)
    ensures r.Handshake? ==> ValidLine(r.line) && r.line.idx == line.idx
    ensures r.Handshake? ==> IsSuffix(r.io.input, io.input)
  {
    match Wait(line, io, OkTerm)
    case Overflow => HandshakeOverflow
    case Waited(ready, line1, io1) =>
      if ready then
        match Wait(line1, io1, SendOkTerm)
        case Overflow => HandshakeOverflow
        case Waited(_, line2, io2) =>
          SuffixTrans(io2.input, io1.input, io.input);
          Handshake(true, line2, io2)
      else Handshake(false, line1, io1)
  }

  lemma {:induction false} PrependEvent(text: seq<byte>, pos: nat, cur: nat, pos3: nat, e: Event, events: seq<Event>)
    requires pos <= pos + cur <= pos3 <= |text| || (e.Refused? && pos <= pos3 <= |text|)
    requires e.Sent? ==> e.data == text[pos..pos + cur] && pos + cur <= pos3
    requires SentBytes(events) == (if e.Sent? then text[pos + cur..pos3] else text[pos..pos3])
    ensures SentBytes([e] + events) == text[pos..pos3]
  {
    assert ([e] + events)[1..] == events;
    if e.Sent? {
      assert text[pos..pos + cur] + text[pos + cur..pos3] == text[pos..pos3];
    }
  }

  /** The length each event announced, in order. */
  function Lengths(es: seq<Event>): (ls: seq<nat>)
    ensures |ls| == |es|
  {
    if es == [] then [] else [Announced(es[0])] + Lengths(es[1..])
  }

  lemma {:induction false} PrependLengths(e: Event, events: seq<Event>)
    ensures Lengths([e] + events) == [Announced(e)] + Lengths(events)
  {
    assert ([e] + events)[1..] == events;
  }

  datatype Replies =
    | Replies(ready: seq<bool>, line: Line, io: Io)
    | RepliesOverflow

  /** The handshakes of `count` sends in a row, in order. What the modem
      answers does not depend on the bytes the sketch writes, so the waits
      of the send loop can be followed on their own. */
  function Handshakes(line: Line, io: Io, count: nat): (r: Replies)
    requires ValidLine(line)
    ensures r.Replies? ==> |r.ready| == count && ValidLine(r.line) && r.line.idx == line.idx
    ensures r.Replies? ==> IsSuffix(r.io.input, io.input)
    decreases count
  {
    if count == 0 then Replies([], line, io)
    else
      match SendHandshake(line, io)
      case HandshakeOverflow => RepliesOverflow
      case Handshake(ready, line1, io1) =>
        match Handshakes(line1, io1, count - 1)
        case RepliesOverflow => RepliesOverflow
        case Replies(rs, line2, io2) =>
          SuffixTrans(io2.input, io1.input, io.input);
          Replies([ready] + rs, line2, io2)
  }

  /** The send loop's requests, given which handshakes succeeded: per chunk,
      the next `cur` bytes of `text` when the modem was ready, or a close
      with nothing written. Returns them with the position reached. */
  function ChunkEvents(text: seq<byte>, channel: int, chunks: seq<nat>, ready: seq<bool>, pos: nat): (r: (seq<Event>, nat))
    requires |ready| == |chunks| && pos + Sum(chunks) <= |text|
    // what is written is the text from `pos` on, in order, without gaps
    ensures pos <= r.1 <= pos + Sum(chunks) && SentBytes(r.0) == text[pos..r.1]
    decreases |chunks|
  {
    if chunks == [] then ([], pos)
    else
      var cur := chunks[0];
      var e := if ready[0] then Sent(channel, text[pos..pos + cur]) else Refused(channel, cur);
      var pos1 := if ready[0] then pos + cur else pos;
      var rest := ChunkEvents(text, channel, chunks[1..], ready[1..], pos1);
      PrependEvent(text, pos, cur, rest.1, e, rest.0);
      ([e] + rest.0, rest.1)
  }

  /** One request per chunk, announcing that chunk's length, on the given
      channel; data goes out exactly for the chunks whose handshake
      succeeded. */
  lemma {:induction false} ChunkEventsFollowReplies(text: seq<byte>, channel: int, chunks: seq<nat>, ready: seq<bool>, pos: nat)
    requires |ready| == |chunks| && pos + Sum(chunks) <= |text|
    ensures var es := ChunkEvents(text, channel, chunks, ready, pos).0;
      && Lengths(es) == chunks
      && (forall k :: 0 <= k < |es| ==> es[k].channel == channel)
      && (forall k :: 0 <= k < |es| ==> (es[k].Sent? <==> ready[k]))
    decreases |chunks|
  {
    if chunks != [] {
      var cur := chunks[0];
      var pos1 := if ready[0] then pos + cur else pos;
      ChunkEventsFollowReplies(text, channel, chunks[1..], ready[1..], pos1);
      var es := ChunkEvents(text, channel, chunks, ready, pos).0;
      var tl := ChunkEvents(text, channel, chunks[1..], ready[1..], pos1).0;
      assert es == [es[0]] + tl;
      PrependLengths(es[0], tl);
      ConsEvents(es[0], tl, channel, ready);
    }
  }

  /** The per-event facts of `ChunkEventsFollowReplies`, one event in front. */
  lemma ConsEvents(e: Event, tl: seq<Event>, channel: int, ready: seq<bool>)
    requires |ready| == |tl| + 1
    requires e.channel == channel && (e.Sent? <==> ready[0])
    requires forall k :: 0 <= k < |tl| ==> tl[k].channel == channel
    requires forall k :: 0 <= k < |tl| ==> (tl[k].Sent? <==> ready[1..][k])
    ensures var es := [e] + tl;
      && (forall k :: 0 <= k < |es| ==> es[k].channel == channel)
      && (forall k :: 0 <= k < |es| ==> (es[k].Sent? <==> ready[k]))
  {
    var es := [e] + tl;
    forall k | 1 <= k < |es|
      ensures es[k] == tl[k - 1] && ready[k] == ready[1..][k - 1]
    {
    }
  }

  /** When every handshake succeeds the whole text goes out. */
  lemma {:induction false} ChunkEventsAllReady(text: seq<byte>, channel: int, chunks: seq<nat>, ready: seq<bool>, pos: nat)
    requires |ready| == |chunks| && pos + Sum(chunks) <= |text|
    requires forall k :: 0 <= k < |ready| ==> ready[k]
    ensures ChunkEvents(text, channel, chunks, ready, pos).1 == pos + Sum(chunks)
    decreases |chunks|
  {
    if chunks != [] {
      assert ready[0];
      assert forall k :: 0 <= k < |ready| - 1 ==> ready[1..][k] == ready[k + 1];
      ChunkEventsAllReady(text, channel, chunks[1..], ready[1..], pos + chunks[0]);
    }
  }

  datatype Sending =
    | Sending(line: Line, io: Io, events: seq<Event>, pos: nat)
    | SendOverflow

  /** The loop of `serveHomePage` over the assembled response `text`:
      announce it in chunks of 1..1024 bytes, writing each chunk the modem
      is ready for. */
  function SendText(text: seq<byte>, channel: int, line: Line, io: Io): (r: Sending)
    requires ValidLine(line)
    ensures r.Sending? ==> ValidLine(r.line) && r.line.idx == line.idx
    ensures r.Sending? ==> IsSuffix(r.io.input, io.input)
    // the announced lengths are the chunking of the whole text (`ChunkSizes`,
    // `ChunkCount`), and what is written is a prefix of it
    ensures r.Sending? ==>
      && Lengths(r.events) == Chunks(|text|)
      && r.pos <= |text| && SentBytes(r.events) == text[..r.pos]
  {
    var chunks := Chunks(|text|);
    ChunkSizes(|text|);
    match Handshakes(line, io, |chunks|)
    case RepliesOverflow => SendOverflow
    case Replies(ready, line', io') =>
      ChunkEventsFollowReplies(text, channel, chunks, ready, 0);
      var sent := ChunkEvents(text, channel, chunks, ready, 0);
      Sending(line', io', sent.0, sent.1)
  }

  /** Every request goes to the given channel, and when the modem accepts
      every chunk it receives the whole text, in order. */
  lemma SendTextDelivers(text: seq<byte>, channel: int, line: Line, io: Io)
    requires ValidLine(line)
    ensures var r := SendText(text, channel, line, io);
      r.Sending? ==>
        && (forall k :: 0 <= k < |r.events| ==> r.events[k].channel == channel)
        && ((forall k :: 0 <= k < |r.events| ==> r.events[k].Sent?) ==>
              SentBytes(r.events) == text)
  {
    var chunks := Chunks(|text|);
    ChunkSizes(|text|);
    var h := Handshakes(line, io, |chunks|);
    if h.Replies? {
      ChunkEventsFollowReplies(text, channel, chunks, h.ready, 0);
      var es := ChunkEvents(text, channel, chunks, h.ready, 0).0;
      if forall k :: 0 <= k < |es| ==> es[k].Sent? {
        ChunkEventsAllReady(text, channel, chunks, h.ready, 0);
        assert text[..|text|] == text;
      }
    }
  }
}

=== FILE: post.dfy ===
/** `readPost`: the header scan, the bounded copy of the body into the
    100-byte post buffer, the carry-over counters between deliveries, the
    decode into the lamp state and the empty acknowledgment. */
module Post {
  import opened Bytes
  import opened Numbers
  import opened LineFramer
  import opened Waiter
  import opened Lamp
  import opened Page

  const PostBufferMax := 100

  function Min(a: int, b: int): (m: int) {
    if a < b then a else b
  }
  const ContentLengthPrefix: seq<byte> := Ascii("Content-Length: ")

  /** The sketch's globals: the line buffer with the static index of
      `read_till_eol`, `missingPostData`, `bufferPos`, `postBufferLen`,
      `postBuffer`, and the lamp state `_state`. */
  datatype Core = Core(
    line: Line,
    missing: int,
    bufferPos: int,
    postLen: int,
    post: seq<byte>,
    lamp: State)

  predicate ValidCore(c: Core) {
    && ValidLine(c.line)
    && c.missing >= 0
    && 0 <= c.bufferPos <= PostBufferMax
    && 0 <= c.postLen <= PostBufferMax
    && |c.post| == PostBufferMax
  }

  /** Power-on: zeroed globals and the default lamp state. */
  function Initial(): (c: Core)
    ensures ValidCore(c) && c.line.idx == 0
    ensures c.missing == 0 && c.bufferPos == 0 && c.postLen == 0
    ensures forall k :: 0 <= k < PostBufferMax ==> c.post[k] == 0
    ensures c.lamp == Default()
  {
    Core(Line(seq(BufferSize, _ => 0), 0), 0, 0, 0, seq(PostBufferMax, _ => 0), Default())
  }

  // ---------------------------------------------------------------------
  // The header scan

  datatype Scanned =
    | Scanned(line: Line, rest: seq<byte>, packageBytes: int, frames: seq<seq<byte>>)
    | ScanStarved   // input ran out inside the headers

  /** The `do ... while (1)` of `readPost`: frame after frame, each one's
      length taken off `packageBytes`, until a frame starting with CR. The
      frames read are appended to `seen`, in order; `len` is what they
      declare (`DeclaredLength`). */
  function ScanHeaders(line: Line, input: seq<byte>, packageBytes: int, seen: seq<seq<byte>>): (r: Scanned)
    requires ValidLine(line)
    ensures r.Scanned? ==>
      && ValidLine(r.line) && r.line.idx == 0
      && |r.rest| < |input|
    // the frames are read from the front of the stream
    ensures r.Scanned? ==> IsSuffix(r.rest, input)
    decreases |input|
  {
    var f := ReadFrame(line, 0, input);
    ReadFrameLeavesSuffix(line, 0, input);
    if f.Starved? then ScanStarved
    else if f.Underflow? then assert false; ScanStarved
    else
      var frame := f.line.buf[..f.len];
      var pb := packageBytes - f.len;
      if f.line.buf[0] == CR then Scanned(f.line, f.rest, pb, seen + [frame])
      else
        var r := ScanHeaders(f.line, f.rest, pb, seen + [frame]);
        if r.Scanned? then SuffixTrans(r.rest, f.rest, input); r else r
  }

  /** The test of each frame in the loop, on the NUL-terminated buffer: a
      frame that starts with `Content-Length: ` sets `len` to the `%d` read
      after the prefix, when there is one. */
  function LengthOf(buf: seq<byte>, len: int): (n: int)
    requires |buf| == BufferSize
  {
    if buf[..16] == ContentLengthPrefix then
      match ScanInt(buf, 16)
      case Some((v, _)) => v
      case None => len
    else len
  }

  /** The same test on one line on its own. */
  function HeaderValue(h: seq<byte>, len: int): (n: int) {
    if |h| >= 16 && h[..16] == ContentLengthPrefix then
      match ScanInt(h, 16)
      case Some((v, _)) => v
      case None => len
    else len
  }

  /** The length a sequence of lines declares, starting from `len`: the last
      `Content-Length: ` line with a number wins. */
  function DeclaredLength(hs: seq<seq<byte>>, len: int): (v: int)
    ensures (forall k :: 0 <= k < |hs| ==> HeaderValue(hs[k], len) == len) ==> v == len
  {
    if hs == [] then len else DeclaredLength(hs[1..], HeaderValue(hs[0], len))
  }

  /** Testing the buffer is testing the frame: the prefix compare and `%d`
      stop at the NUL that ends it. */
  lemma LengthOfLine(buf: seq<byte>, h: seq<byte>, len: int)
    requires |buf| == BufferSize && |h| < BufferSize
    requires buf[..|h|] == h && buf[|h|] == NUL
    ensures LengthOf(buf, len) == HeaderValue(h, len)
  {
    if |h| >= 16 {
      assert buf[..16] == h[..16];
      ScanStopsAtNul(buf, h, 16);
    } else {
      assert ContentLengthPrefix[|h|] != NUL;
      assert buf[..16][|h|] == NUL;
    }
  }

  /** The header line that declares a body of `n` bytes. */
  function LengthLine(n: nat): (h: seq<byte>)
    ensures |h| == 16 + |Decimal(n)| + 2 && h[..16] == ContentLengthPrefix
  {
    ContentLengthPrefix + Decimal(n) + [CR, LF]
  }

  /** A `Content-Length: ` line sets `len` to its number, whatever it was. */
  lemma ContentLengthLine(n: nat, len: int)
    ensures HeaderValue(LengthLine(n), len) == n
  {
    var h := LengthLine(n);
    var e := 16 + |Decimal(n)|;
    assert h[16..e] == Decimal(n);
    assert h[e] == CR;
    ScanDecimal(h, 16, n);
  }

  /** Reading lines one after another: what the later lines declare starts
      from what the earlier ones left. */
  lemma {:induction false} DeclaredLengthAppend(a: seq<seq<byte>>, b: seq<seq<byte>>, len: int)
    ensures DeclaredLength(a + b, len) == DeclaredLength(b, DeclaredLength(a, len))
    decreases |a|
  {
    if a == [] {
      assert a + b == b;
    } else {
      assert (a + b)[1..] == a[1..] + b;
      DeclaredLengthAppend(a[1..], b, HeaderValue(a[0], len));
    }
  }

  /** The last `Content-Length: ` line wins: after it, lines that declare
      nothing leave its number in `len`, whatever came before. */
  lemma {:induction false} LastLengthWins(hs: seq<seq<byte>>, n: nat, others: seq<seq<byte>>, len: int)
    requires forall k :: 0 <= k < |others| ==> HeaderValue(others[k], n) == n
    ensures DeclaredLength(hs + [LengthLine(n)] + others, len) == n
  {
    var v := DeclaredLength(hs, len);
    DeclaredLengthAppend(hs + [LengthLine(n)], others, len);
    DeclaredLengthAppend(hs, [LengthLine(n)], len);
    ContentLengthLine(n, v);
    assert DeclaredLength([LengthLine(n)], v) == DeclaredLength([], n);
  }

  /** A header line as a client sends it: a line that is not the blank one. */
  predicate IsHeaderLine(h: seq<byte>) {
    IsLine(h) && h[0] != CR
  }

  /** A `Content-Length: ` line that fits the buffer is a header line: no
      CR comes before its end. */
  lemma LengthLineIsHeader(n: nat)
    requires |LengthLine(n)| < BufferSize
    ensures IsHeaderLine(LengthLine(n))
  {
    var h := LengthLine(n);
    var d := Decimal(n);
    forall k | 2 <= k < |h|
      ensures !CrlfEndsAt(h, k)
    {
      if k - 2 < 16 {
        assert h[k - 2] == ContentLengthPrefix[k - 2];
      } else {
        assert h[k - 2] == d[k - 18];
      }
    }
    assert h[0] == ContentLengthPrefix[0];
  }

  function Concat(hs: seq<seq<byte>>): (bs: seq<byte>) {
    if hs == [] then [] else hs[0] + Concat(hs[1..])
  }

  /** The blank line declares nothing. */
  lemma {:induction false} DeclaredLengthBlank(hs: seq<seq<byte>>, len: int)
    ensures DeclaredLength(hs + [[CR, LF]], len) == DeclaredLength(hs, len)
    decreases |hs|
  {
    if hs == [] {
      assert [[CR, LF]][1..] == [];
    } else {
      assert (hs + [[CR, LF]])[1..] == hs[1..] + [[CR, LF]];
      DeclaredLengthBlank(hs[1..], HeaderValue(hs[0], len));
    }
  }

  /** One round of the scan on a frame that is not the blank line. */
  lemma ScanStep(line: Line, input: seq<byte>, packageBytes: int, seen: seq<seq<byte>>, line': Line, n: nat, rest: seq<byte>)
    requires ValidLine(line)
    requires ReadFrame(line, 0, input) == Framed(line', n, rest) && line'.buf[0] != CR
    ensures ScanHeaders(line, input, packageBytes, seen)
         == ScanHeaders(line', rest, packageBytes - n, seen + [line'.buf[..n]])
  {
  }

  /** The blank line ends the scan. */
  lemma {:induction false} ScanBlankLine(line: Line, rest: seq<byte>, packageBytes: int, seen: seq<seq<byte>>)
    requires ValidLine(line) && line.idx == 0
    ensures var r := ScanHeaders(line, [CR, LF] + rest, packageBytes, seen);
      && r.Scanned? && r.rest == rest
      && r.packageBytes == packageBytes - 2
      && r.frames == seen + [[CR, LF]]
  {
    var blank := [CR, LF];
    assert IsLine(blank);
    ReadsLine(line, 0, blank, rest);
  }

  /** Well-formed headers, then the blank line: the scan reads exactly these
      lines, stops right after the blank one, and takes every line's length
      off `packageBytes`. */
  lemma {:induction false} ScanWellFormed(line: Line, input: seq<byte>, hs: seq<seq<byte>>, rest: seq<byte>, packageBytes: int, seen: seq<seq<byte>>)
    requires ValidLine(line) && line.idx == 0
    requires forall k :: 0 <= k < |hs| ==> IsHeaderLine(hs[k])
    requires input == Concat(hs) + [CR, LF] + rest
    ensures var r := ScanHeaders(line, input, packageBytes, seen);
      && r.Scanned? && r.rest == rest
      && r.packageBytes == packageBytes - |Concat(hs)| - 2
      && r.frames == seen + hs + [[CR, LF]]
    decreases |hs|
  {
    if hs == [] {
      assert input == [CR, LF] + rest;
      ScanBlankLine(line, rest, packageBytes, seen);
    } else {
      var h := hs[0];
      var tail := Concat(hs[1..]) + [CR, LF] + rest;
      assert input == h + tail;
      ScanHeaderLine(line, input, h, tail, packageBytes, seen);
      var f := ReadFrame(line, 0, input);
      ScanWellFormed(f.line, tail, hs[1..], rest, packageBytes - |h|, seen + [h]);
      ConsLines(seen, hs);
    }
  }

  /** Taking the first line off a sequence of lines. */
  lemma ConsLines(seen: seq<seq<byte>>, hs: seq<seq<byte>>)
    requires hs != []
    ensures |Concat(hs)| == |hs[0]| + |Concat(hs[1..])|
    ensures seen + [hs[0]] + hs[1..] == seen + hs
  {
    assert hs == [hs[0]] + hs[1..];
  }

  /** A header line at the front of the stream is one round of the scan. */
  lemma ScanHeaderLine(line: Line, input: seq<byte>, h: seq<byte>, tail: seq<byte>, packageBytes: int, seen: seq<seq<byte>>)
    requires ValidLine(line) && line.idx == 0 && IsHeaderLine(h) && input == h + tail
    ensures var f := ReadFrame(line, 0, input);
      && f.Framed? && ValidLine(f.line) && f.line.idx == 0
      && ScanHeaders(line, input, packageBytes, seen)
         == ScanHeaders(f.line, tail, packageBytes - |h|, seen + [h])
  {
    ReadsLine(line, 0, h, tail);
    var f := ReadFrame(line, 0, input);
    assert f.line.buf[0] == f.line.buf[..|h|][0];
    ScanStep(line, input, packageBytes, seen, f.line, |h|, tail);
  }

  // ---------------------------------------------------------------------
  // The body copy

  datatype Copied =
    | Copied(post: seq<byte>, end: int, rest: seq<byte>)
    | CopyStarved   // the wait for the next body byte never ends

  /** `n` bytes of `input` written into `post` from index `i` on. */
  function CopyN(post: seq<byte>, i: nat, input: seq<byte>, n: nat): (r: seq<byte>)
    requires i + n <= |post| && n <= |input|
    ensures r == post[..i] + input[..n] + post[i + n..]
    decreases n
  {
    if n == 0 then post
    else
      var r := CopyN(post[i := input[0]], i + 1, input[1..], n - 1);
      assert post[i := input[0]][..i + 1] == post[..i] + [input[0]];
      assert input[..n] == [input[0]] + input[1..][..n - 1];
      r
  }

  /** The copy loop of `readPost`: indexes `i` up to `p` of the post buffer
      take the next stream bytes in turn. Each byte is waited for; when the
      stream holds fewer than the loop needs, the wait never ends. */
  function CopyBody(post: seq<byte>, i: int, p: int, input: seq<byte>): (r: Copied)
    requires |post| == PostBufferMax && 0 <= i <= PostBufferMax && p <= PostBufferMax
    ensures r.CopyStarved? <==> i < p && |input| < p - i
    // the loop ends at `p`, or at once when it starts past `p`; it fills
    // exactly `[i, end)` from the stream and leaves the rest of the buffer
    ensures r.Copied? ==>
      && r.end == (if i < p then p else i)
      && r.end - i <= |input|
      && r.post == post[..i] + input[..r.end - i] + post[r.end..]
      && r.rest == input[r.end - i..]
  {
    if i >= p then
      assert post == post[..i] + input[..0] + post[i..];
      Copied(post, i, input)
    else if |input| < p - i then CopyStarved
    else Copied(CopyN(post, i, input, p - i), p, input[p - i..])
  }

  // ---------------------------------------------------------------------
  // One delivery

  datatype Received =
    | Received(core: Core, rest: seq<byte>)
    | ReceiveStarved

  /** `readPost` after the header loop: `len` body bytes are expected and
      `packageBytes` of them are in this delivery, whose next bytes are
      `input`. It copies `min(len, packageBytes)` bytes, at most up to index
      100, and either carries the shortfall to the next delivery or
      completes the body and decodes it. */
  function Deliver(c: Core, line: Line, len: int, packageBytes: int, input: seq<byte>): (r: Received)
    requires ValidCore(c) && ValidLine(line)
    ensures r.Received? ==> ValidCore(r.core) && IsSuffix(r.rest, input) && r.core.line == line
    // nothing before the resume position is ever overwritten
    ensures r.Received? ==> r.core.post[..c.bufferPos] == c.post[..c.bufferPos]
    // a carry leaves the lamp and the last body length alone and never moves
    // the resume position back; a completion decodes the post buffer and
    // resets the resume position
    ensures r.Received? && r.core.missing > 0 ==>
      && r.core.lamp == c.lamp && r.core.postLen == c.postLen
      && c.bufferPos <= r.core.bufferPos
    ensures r.Received? && r.core.missing == 0 ==>
      r.core.bufferPos == 0 && r.core.lamp == Decode(r.core.post)
  {
    var p0 := Min(len, packageBytes);
    var remaining := len - p0;
    var p := Min(p0, PostBufferMax);
    var copied := CopyBody(c.post, c.bufferPos, p, input);
    if copied.CopyStarved? then ReceiveStarved
    else
      assert copied.post[..c.bufferPos] == c.post[..c.bufferPos];
      if remaining > 0 then
        Received(c.(line := line, missing := remaining, bufferPos := copied.end,
                    post := copied.post), copied.rest)
      else
        Received(c.(line := line, missing := 0, bufferPos := 0, postLen := copied.end,
                    post := copied.post, lamp := Decode(copied.post)), copied.rest)
  }

  /** `readPost` up to the decode, for a delivery of `packageBytes` bytes
      whose first bytes are `input`: with no body outstanding the header
      loop runs first and `len` is what the headers declare; otherwise `len`
      is what is still missing. */
  function ReceivePost(c: Core, input: seq<byte>, packageBytes: int): (r: Received)
    requires ValidCore(c)
    ensures r.Received? ==> ValidCore(r.core) && IsSuffix(r.rest, input)
    // a continuation reads no header lines
    ensures r.Received? && c.missing > 0 ==> r.core.line == c.line
  {
    var s := if c.missing == 0 then ScanHeaders(c.line, input, packageBytes, [])
             else Scanned(c.line, input, packageBytes, []);
    if s.ScanStarved? then ReceiveStarved
    else
      var r := Deliver(c, s.line, DeclaredLength(s.frames, c.missing), s.packageBytes, s.rest);
      if r.Received? then SuffixTrans(r.rest, s.rest, input); r else r
  }

  /** Any delivery: the copy runs from the resume position to
      `min(len, packageBytes, 100)`, or not at all when the resume position
      is already past it, and waits for every byte it copies. A shortfall
      of the packet against `len` is carried over with the copy's end as the
      resume position; otherwise the body is complete, its length is where
      the copy ended, and the lamp takes the decoded buffer. */
  lemma DeliverStores(c: Core, line: Line, len: int, packageBytes: int, input: seq<byte>)
    requires ValidCore(c) && ValidLine(line)
    ensures var p0 := Min(len, packageBytes);
      var p := Min(p0, PostBufferMax);
      var e := if c.bufferPos < p then p else c.bufferPos;
      var carry := len - p0 > 0;
      var r := Deliver(c, line, len, packageBytes, input);
      && (r.ReceiveStarved? <==> |input| < e - c.bufferPos)
      && (r.Received? ==>
        && r.core.line == line
        && r.core.missing == (if carry then len - p0 else 0)
        && r.core.bufferPos == (if carry then e else 0)
        && r.core.postLen == (if carry then c.postLen else e)
        && r.core.post == c.post[..c.bufferPos] + input[..e - c.bufferPos] + c.post[e..]
        && r.rest == input[e - c.bufferPos..]
        && r.core.lamp == (if carry then c.lamp else Decode(r.core.post)))
  {
  }

  /** A delivery that holds the rest of the body completes it: the first
      `min(len, 100)` bytes land at the front of the post buffer, the bytes
      past 100 stay in the stream, and the lamp takes the decoded buffer. */
  lemma DeliverCompletes(c: Core, line: Line, len: int, packageBytes: int, input: seq<byte>)
    requires ValidCore(c) && ValidLine(line) && c.bufferPos == 0
    requires 0 <= len <= packageBytes
    requires |input| >= Min(len, PostBufferMax)
    ensures var n := Min(len, PostBufferMax);
      var r := Deliver(c, line, len, packageBytes, input);
      && r.Received? && r.core.line == line
      && r.core.missing == 0 && r.core.bufferPos == 0 && r.core.postLen == n
      && r.core.post == input[..n] + c.post[n..]
      && r.rest == input[n..]
      && r.core.lamp == Decode(r.core.post)
  {
  }

  /** A delivery that holds only part of the body carries the rest over: it
      stores what it holds (up to index 100), remembers how much is still
      missing and where it stopped, and leaves the lamp alone. */
  lemma DeliverCarries(c: Core, line: Line, len: int, packageBytes: int, input: seq<byte>)
    requires ValidCore(c) && ValidLine(line) && c.bufferPos == 0
    requires 0 <= packageBytes < len
    requires |input| >= Min(packageBytes, PostBufferMax)
    ensures var n := Min(packageBytes, PostBufferMax);
      var r := Deliver(c, line, len, packageBytes, input);
      && r.Received? && r.core.line == line
      && r.core.missing == len - packageBytes && r.core.bufferPos == n
      && r.core.post == input[..n] + c.post[n..]
      && r.rest == input[n..]
      && r.core.lamp == c.lamp && r.core.postLen == c.postLen
  {
  }

  /** The continuation of a split body: the copy loop runs from the resume
      position up to this delivery's own count, so once as many bytes were
      stored as are still missing it stores nothing. The body is declared
      complete, none of its remaining bytes is read, and the lamp takes
      whatever the buffer held. */
  lemma DeliverSkipsContinuation(c: Core, line: Line, packageBytes: int, input: seq<byte>)
    requires ValidCore(c) && ValidLine(line)
    requires 0 < c.missing <= packageBytes && c.missing <= c.bufferPos
    ensures var r := Deliver(c, line, c.missing, packageBytes, input);
      && r.Received? && r.rest == input
      && r.core.missing == 0 && r.core.bufferPos == 0 && r.core.postLen == c.bufferPos
      && r.core.post == c.post
      && r.core.lamp == Decode(c.post)
  {
    assert c.post == c.post[..c.bufferPos] + input[..0] + c.post[c.bufferPos..];
  }

  /** A request with well-formed headers whose delivery holds the whole
      body: the scan reads the headers, `len` is what they declare (0 without
      a `Content-Length: ` line), and the body completes with its first
      `min(len, 100)` bytes stored and the rest left in the stream. */
  lemma {:induction false} ReceivesWholeBody(c: Core, hs: seq<seq<byte>>, body: seq<byte>, packageBytes: int)
    requires ValidCore(c) && c.missing == 0 && c.bufferPos == 0 && c.line.idx == 0
    requires forall k :: 0 <= k < |hs| ==> IsHeaderLine(hs[k])
    requires 0 <= DeclaredLength(hs, 0) <= packageBytes - |Concat(hs)| - 2
    requires Min(DeclaredLength(hs, 0), PostBufferMax) <= |body|
    ensures var n := Min(DeclaredLength(hs, 0), PostBufferMax);
      var r := ReceivePost(c, Concat(hs) + [CR, LF] + body, packageBytes);
      && r.Received?
      && r.core.missing == 0 && r.core.bufferPos == 0 && r.core.postLen == n
      && r.core.post == body[..n] + c.post[n..]
      && r.rest == body[n..]
      && r.core.lamp == Decode(r.core.post)
  {
    var input := Concat(hs) + [CR, LF] + body;
    ScanWellFormed(c.line, input, hs, body, packageBytes, []);
    var s := ScanHeaders(c.line, input, packageBytes, []);
    assert s.frames == hs + [[CR, LF]];
    DeclaredLengthBlank(hs, 0);
    DeliverCompletes(c, s.line, DeclaredLength(hs, 0), s.packageBytes, s.rest);
  }

  /** A 20-byte packet delivered whole after headers declaring its length
      is what the lamp decodes, and the stream goes on right after it. */
  lemma {:induction false} PacketArrives(c: Core, hs: seq<seq<byte>>, packet: seq<byte>, more: seq<byte>, packageBytes: int)
    requires ValidCore(c) && c.missing == 0 && c.bufferPos == 0 && c.line.idx == 0
    requires forall k :: 0 <= k < |hs| ==> IsHeaderLine(hs[k])
    requires |packet| == PacketSize && DeclaredLength(hs, 0) == PacketSize
    requires packageBytes >= |Concat(hs)| + 2 + PacketSize
    ensures var r := ReceivePost(c, Concat(hs) + [CR, LF] + (packet + more), packageBytes);
      r.Received? && r.core.lamp == Decode(packet) && r.rest == more
  {
    var body := packet + more;
    ReceivesWholeBody(c, hs, body, packageBytes);
    var r := ReceivePost(c, Concat(hs) + [CR, LF] + body, packageBytes);
    StoredPacket(r.core.post, c.post, packet, more);
    assert body[PacketSize..] == more;
  }

  /** The request the control page sends: one `Content-Length: 20` line,
      the blank line and the 20-byte packet, all in one delivery. */
  lemma {:induction false} PacketAfterLengthLine(c: Core, packet: seq<byte>, more: seq<byte>, packageBytes: int)
    requires ValidCore(c) && c.missing == 0 && c.bufferPos == 0 && c.line.idx == 0
    requires |packet| == PacketSize
    requires packageBytes >= |LengthLine(PacketSize)| + 2 + PacketSize
    ensures var r := ReceivePost(c, LengthLine(PacketSize) + [CR, LF] + (packet + more), packageBytes);
      r.Received? && r.core.lamp == Decode(packet) && r.rest == more
  {
    var hs := [LengthLine(PacketSize)];
    LengthLineIsHeader(PacketSize);
    LastLengthWins([], PacketSize, [], 0);
    assert [] + [LengthLine(PacketSize)] + [] == hs;
    assert Concat(hs) == LengthLine(PacketSize) by {
      assert Concat(hs[1..]) == [];
    }
    PacketArrives(c, hs, packet, more, packageBytes);
  }

  /** A packet stored at the front of the post buffer decodes as itself. */
  lemma StoredPacket(post: seq<byte>, before: seq<byte>, packet: seq<byte>, more: seq<byte>)
    requires |packet| == PacketSize && |before| == PostBufferMax
    requires post == (packet + more)[..PacketSize] + before[PacketSize..]
    ensures Decode(post) == Decode(packet)
  {
    assert (packet + more)[..PacketSize] == packet;
    assert post[..DecodedSize] == packet[..DecodedSize];
    DecodeReadsPrefix(post, packet);
  }

  /** The packet the control page posts, delivered whole, sets the lamp to
      exactly the state the page encoded. */
  lemma {:induction false} PostedStateArrives(c: Core, hs: seq<seq<byte>>, st: State, more: seq<byte>, packageBytes: int)
    requires ValidCore(c) && c.missing == 0 && c.bufferPos == 0 && c.line.idx == 0
    requires forall k :: 0 <= k < |hs| ==> IsHeaderLine(hs[k])
    requires DeclaredLength(hs, 0) == PacketSize
    requires packageBytes >= |Concat(hs)| + 2 + PacketSize
    ensures var r := ReceivePost(c, Concat(hs) + [CR, LF] + (Encode(st) + more), packageBytes);
      r.Received? && r.core.lamp == st && r.rest == more
  {
    PacketArrives(c, hs, Encode(st), more, packageBytes);
    DecodeEncode(st);
  }

  /** The first part of a body split over two deliveries: what arrived is
      stored at the front of the buffer, the shortfall is carried over with
      the resume position, and the lamp is left alone. */
  lemma {:induction false} ReceivesFirstPart(c: Core, hs: seq<seq<byte>>, part: seq<byte>, packageBytes: int)
    requires ValidCore(c) && c.missing == 0 && c.bufferPos == 0 && c.line.idx == 0
    requires forall k :: 0 <= k < |hs| ==> IsHeaderLine(hs[k])
    requires |part| == packageBytes - |Concat(hs)| - 2 < DeclaredLength(hs, 0)
    requires |part| <= PostBufferMax
    ensures var r := ReceivePost(c, Concat(hs) + [CR, LF] + part, packageBytes);
      && r.Received? && r.rest == []
      && r.core.missing == DeclaredLength(hs, 0) - |part| && r.core.bufferPos == |part|
      && r.core.post == part + c.post[|part|..]
      && r.core.lamp == c.lamp
  {
    var input := Concat(hs) + [CR, LF] + part;
    ScanWellFormed(c.line, input, hs, part, packageBytes, []);
    var s := ScanHeaders(c.line, input, packageBytes, []);
    assert s.frames == hs + [[CR, LF]];
    DeclaredLengthBlank(hs, 0);
    DeliverCarries(c, s.line, DeclaredLength(hs, 0), s.packageBytes, s.rest);
    assert part[..|part|] == part;
  }

  /** The second part of a split body, when no fewer bytes were stored than
      are still missing: nothing is read, the body is declared complete and
      the lamp decodes the buffer as it stands. */
  lemma ContinuationReadsNothing(c: Core, input: seq<byte>, packageBytes: int)
    requires ValidCore(c) && 0 < c.missing <= packageBytes && c.missing <= c.bufferPos
    ensures var r := ReceivePost(c, input, packageBytes);
      && r.Received? && r.rest == input
      && r.core.missing == 0 && r.core.post == c.post
      && r.core.lamp == Decode(c.post)
  {
    DeliverSkipsContinuation(c, c.line, packageBytes, input);
  }

  /** A 20-byte packet split 12 + 8 over two deliveries: the second part is
      never read, and the lamp decodes the first 12 bytes followed by
      whatever the buffer held before. */
  lemma {:induction false} SplitPacketLosesTail(c: Core, hs: seq<seq<byte>>, packet: seq<byte>, more: seq<byte>)
    requires ValidCore(c) && c.missing == 0 && c.bufferPos == 0 && c.line.idx == 0
    requires forall k :: 0 <= k < |hs| ==> IsHeaderLine(hs[k])
    requires |packet| == PacketSize && DeclaredLength(hs, 0) == PacketSize
    ensures var r1 := ReceivePost(c, Concat(hs) + [CR, LF] + packet[..12], |Concat(hs)| + 2 + 12);
      && r1.Received? && r1.rest == []
      && r1.core.missing == 8 && r1.core.bufferPos == 12
      && r1.core.post == packet[..12] + c.post[12..]
      && var r2 := ReceivePost(r1.core, packet[12..] + more, 8);
      && r2.Received? && r2.rest == packet[12..] + more
      && r2.core.lamp == Decode(r1.core.post)
  {
    ReceivesFirstPart(c, hs, packet[..12], |Concat(hs)| + 2 + 12);
    var r1 := ReceivePost(c, Concat(hs) + [CR, LF] + packet[..12], |Concat(hs)| + 2 + 12);
    ContinuationReadsNothing(r1.core, packet[12..] + more, 8);
  }

  // ---------------------------------------------------------------------
  // The acknowledgment and the whole of `readPost`

  /** The empty 200 response sent once a body is complete. */
  const Ack: seq<byte> := Response([])

  /** The reply at the end of `readPost`: one `AT+CIPSEND` announcing the
      whole acknowledgment, which is written when the modem is ready and
      closed otherwise. */
  function Reply(line: Line, io: Io, channel: int): (r: Sending)
    requires ValidLine(line)
    ensures r.Sending? ==> ValidLine(r.line) && r.line.idx == line.idx
    ensures r.Sending? ==> IsSuffix(r.io.input, io.input)
  {
    match SendHandshake(line, io)
    case HandshakeOverflow => SendOverflow
    case Handshake(ready, line1, io1) =>
      if ready then Sending(line1, io1, [Sent(channel, Ack)], |Ack|)
      else Sending(line1, io1, [Refused(channel, |Ack|)], 0)
  }

  /** The acknowledgment fits one chunk, so the reply is exactly what the
      page's send loop does with it. */
  lemma ReplyIsOneChunk(line: Line, io: Io, channel: int)
    requires ValidLine(line)
    ensures Reply(line, io, channel) == SendText(Ack, channel, line, io)
  {
    assert |Ack| == 81;
    assert Chunks(|Ack|) == [|Ack|] + Chunks(0);
    var h := SendHandshake(line, io);
    if h.Handshake? {
      assert Handshakes(line, io, 1) == Replies([h.ready] + [], h.line, h.io);
      var pos := if h.ready then |Ack| else 0;
      assert ChunkEvents(Ack, channel, [], [], pos) == ([], pos);
    }
  }

  /** What can go wrong besides waiting forever: accesses outside the line
      buffer, which the sketch does not guard against. */
  datatype Fault =
    | ReadBeforeLine   // the terminator test read `buffer[-1]`
    | WaitOverrun      // `waitForResponse` wrote `buffer[1024]`
    | ColonOverrun     // the search for ':' ran off the end of the buffer
    | CompareOverrun   // `strncmp` read past the end of the buffer

  /** The outcome of one call: the new globals, the rest of the stream and
      the requests made to the modem; or a busy-wait that never ends; or
      undefined behaviour. */
  datatype Run =
    | Ran(core: Core, io: Io, events: seq<Event>)
    | Blocked
    | Crashed(fault: Fault)

  /** `readPost(channel, packageBytes)`: receive, and after a completed body
      acknowledge it. */
  function ReadPost(c: Core, io: Io, channel: int, packageBytes: int): (r: Run)
    requires ValidCore(c)
    ensures r.Ran? ==> ValidCore(r.core) && IsSuffix(r.io.input, io.input)
    ensures r.Crashed? ==> r.fault == WaitOverrun
  {
    match ReceivePost(c, io.input, packageBytes)
    case ReceiveStarved => Blocked
    case Received(c1, rest) =>
      if c1.missing > 0 then Ran(c1, io.(input := rest), [])
      else
        match Reply(c1.line, io.(input := rest), channel)
        case SendOverflow => Crashed(WaitOverrun)
        case Sending(line2, io2, events, _) =>
          SuffixTrans(io2.input, rest, io.input);
          Ran(c1.(line := line2), io2, events)
  }

  /** A carried body answers nothing; a completed one is acknowledged once,
      on the request's channel. */
  lemma ReadPostAnswers(c: Core, io: Io, channel: int, packageBytes: int)
    requires ValidCore(c)
    ensures var r := ReadPost(c, io, channel, packageBytes);
      && (r.Ran? ==> |r.events| == (if r.core.missing > 0 then 0 else 1))
      && (r.Ran? ==> forall k :: 0 <= k < |r.events| ==> r.events[k].channel == channel)
  {
  }
}

=== FILE: server.dfy ===
/** `loopWebServer`: one call of `read_till_eol`, and for a complete
    `+IPD,<channel>,<length>:<payload>` frame the dispatch to the page
    sender or to `readPost`. */
module Server {
  import opened Bytes
  import opened Numbers
  import opened LineFramer
  import opened Waiter
  import opened Page
  import opened Post

  const IpdPrefix: seq<byte> := [0x2B, 0x49, 0x50, 0x44, 0x2C]        // "+IPD,"
  const GetPrefix: seq<byte> := [0x47, 0x45, 0x54, 0x20, 0x2F]        // "GET /"
  const PostPrefix: seq<byte> := [0x50, 0x4F, 0x53, 0x54, 0x20, 0x2F] // "POST /"

  /** The indeterminate values `channelID` and `packet_len` hold before
      `sscanf` assigns them: the locals are not initialised. */
  datatype Junk = Junk(channel: int, packetLen: int)

  /** The scan of the channel and the packet length, two decimals separated
      by a comma after "+IPD,", with its result unchecked: each variable the
      scan does not reach keeps its junk. */
  function ParseIpd(buf: seq<byte>, junk: Junk): (r: (int, int))
    requires 5 <= |buf|
    ensures ScanInt(buf, 5).None? ==> r == (junk.channel, junk.packetLen)
    ensures ScanInt(buf, 5).Some? ==> r.0 == ScanInt(buf, 5).value.0
  {
    match ScanInt(buf, 5)
    case None => (junk.channel, junk.packetLen)
    case Some((channel, e)) =>
      if e < |buf| && buf[e] == Comma then
        match ScanInt(buf, e + 1)
        case None => (channel, junk.packetLen)
        case Some((len, _)) => (channel, len)
      else (channel, junk.packetLen)
  }

  /** The header the modem puts before a delivery. */
  function IpdHeader(channel: nat, len: nat): (h: seq<byte>)
    ensures |h| == 5 + |Decimal(channel)| + 1 + |Decimal(len)| + 1
  {
    IpdPrefix + Decimal(channel) + [Comma] + Decimal(len) + [Colon]
  }

  /** Whatever the junk, the numbers the modem wrote are the ones read. */
  lemma ParseIpdHeader(buf: seq<byte>, channel: nat, len: nat, junk: Junk)
    requires |IpdHeader(channel, len)| <= |buf|
    requires buf[..|IpdHeader(channel, len)|] == IpdHeader(channel, len)
    ensures ParseIpd(buf, junk) == (channel as int, len as int)
  {
    HeaderFields(buf, channel, len);
    ScanDecimal(buf, 5, channel);
    ScanDecimal(buf, 5 + |Decimal(channel)| + 1, len);
  }

  /** Where the fields of a `+IPD` header lie in a buffer that starts with it. */
  lemma HeaderFields(buf: seq<byte>, channel: nat, len: nat)
    requires |IpdHeader(channel, len)| <= |buf|
    requires buf[..|IpdHeader(channel, len)|] == IpdHeader(channel, len)
    ensures var e := 5 + |Decimal(channel)|;
      && buf[5..e] == Decimal(channel) && buf[e] == Comma
      && buf[e + 1..e + 1 + |Decimal(len)|] == Decimal(len)
      && buf[e + 1 + |Decimal(len)|] == Colon
  {
    FieldsAt(buf, IpdPrefix, Decimal(channel), Decimal(len), Comma, Colon);
  }

  /** Positions in a buffer that starts with `p + a + [x] + b + [y]`. */
  lemma FieldsAt(buf: seq<byte>, p: seq<byte>, a: seq<byte>, b: seq<byte>, x: byte, y: byte)
    requires |p| + |a| + |b| + 2 <= |buf|
    requires buf[..|p| + |a| + |b| + 2] == p + a + [x] + b + [y]
    ensures buf[|p|..|p| + |a|] == a && buf[|p| + |a|] == x
    ensures buf[|p| + |a| + 1..|p| + |a| + 1 + |b|] == b
    ensures buf[|p| + |a| + 1 + |b|] == y
  {
    var n := |p| + |a| + |b| + 2;
    var e := |p| + |a|;
    forall k | 0 <= k < |a|
      ensures buf[|p|..e][k] == a[k]
    {
      assert buf[|p| + k] == buf[..n][|p| + k];
    }
    forall k | 0 <= k < |b|
      ensures buf[e + 1..e + 1 + |b|][k] == b[k]
    {
      assert buf[e + 1 + k] == buf[..n][e + 1 + k];
    }
    assert buf[e] == buf[..n][e];
    assert buf[e + 1 + |b|] == buf[..n][e + 1 + |b|];
  }

  /** The unbounded search for ':' from index `k`: the first ':' at or after
      `k`, or `None` when the search runs off the end of the buffer. The
      search does not stop at the NUL that ends the frame. */
  function ColonFrom(buf: seq<byte>, k: nat): (r: Option<nat>)
    requires k <= |buf|
    ensures r.Some? ==> k <= r.value < |buf| && buf[r.value] == Colon
    ensures r.Some? ==> forall j :: k <= j < r.value ==> buf[j] != Colon
    ensures r.None? <==> forall j :: k <= j < |buf| ==> buf[j] != Colon
    decreases |buf| - k
  {
    if k == |buf| then None
    else if buf[k] == Colon then Some(k)
    else ColonFrom(buf, k + 1)
  }

  datatype Cmp = Same | Differs | Overrun

  /** Comparing at most `|lit|` bytes from `at` with a literal without NUL,
      as the C library does: the comparison stops at the first differing
      byte (a NUL in `buf` is one), and reads past the buffer when `buf`
      runs out while still agreeing. */
  function Compare(buf: seq<byte>, at: nat, lit: seq<byte>): (r: Cmp)
    requires at <= |buf|
    ensures r == Same <==> at + |lit| <= |buf| && buf[at..at + |lit|] == lit
    ensures r == Overrun <==> |buf| < at + |lit| && buf[at..] == lit[..|buf| - at]
    decreases |lit|
  {
    if lit == [] then Same
    else if at == |buf| then Overrun
    else if buf[at] != lit[0] then Differs
    else
      var r := Compare(buf, at + 1, lit[1..]);
      assert buf[at..] == [buf[at]] + buf[at + 1..];
      assert lit == [lit[0]] + lit[1..];
      assert at + |lit| <= |buf| ==> buf[at..at + |lit|] == [buf[at]] + buf[at + 1..at + |lit|];
      r
  }

  /** The GET branch: wait for the modem's acknowledgment of the request,
      then `serveHomePage`, which sends the home page around the HTML
      literal `html` in chunks. Both overwrite the front of the line
      buffer. */
  function ServeGet(html: seq<byte>, c: Core, io: Io, channel: int): (r: Run)
    requires ValidCore(c)
    ensures r.Ran? ==> ValidCore(r.core) && IsSuffix(r.io.input, io.input)
    ensures r.Ran? ==> r.core == c.(line := r.core.line)
    ensures r.Crashed? ==> r.fault == WaitOverrun
  {
    match Wait(c.line, io, OkTerm)
    case Overflow => Crashed(WaitOverrun)
    case Waited(_, line1, io1) =>
      match SendText(HomePage(html), channel, line1, io1)
      case SendOverflow => Crashed(WaitOverrun)
      case Sending(line2, io2, events, _) =>
        SuffixTrans(io2.input, io1.input, io.input);
        Ran(c.(line := line2), io2, events)
  }

  /** What the GET branch sends is the page, chunked by its length. */
  lemma {:induction false} ServeGetSendsPage(html: seq<byte>, c: Core, io: Io, channel: int)
    requires ValidCore(c)
    ensures var r := ServeGet(html, c, io, channel);
      r.Ran? ==> Lengths(r.events) == Chunks(|HomePage(html)|) && SentBytes(r.events) <= HomePage(html)
  {
  }

  /** Where a complete frame leads: to a finished outcome, or to `readPost`
      with the core, stream, channel and body length it is called with and
      what was sent before it. */
  datatype Route =
    | Done(run: Run)
    | ToBody(prior: seq<Event>, core: Core, io: Io, channel: int, packageBytes: int)

  /** The GET test of `loopWebServer` at `pb`, just after the colon. */
  function GetTest(html: seq<byte>, c: Core, io: Io, channel: int, pb: nat): (r: Run)
    requires ValidCore(c) && pb <= BufferSize
    ensures r.Ran? ==> ValidCore(r.core) && IsSuffix(r.io.input, io.input)
    ensures r.Crashed? ==> r.fault != ReadBeforeLine
  {
    match Compare(c.line.buf, pb, GetPrefix)
    case Overrun => Crashed(CompareOverrun)
    case Differs => Ran(c, io, [])
    case Same => ServeGet(html, c, io, channel)
  }

  /** The POST branch restarts the body counters before calling `readPost`. */
  function Restart(c: Core): (c1: Core) {
    c.(bufferPos := 0, missing := 0)
  }

  /** The POST test, on the buffer as the GET branch left it. */
  function PostTest(done: Run, channel: int, pb: nat, bodyLen: int): (r: Route)
    requires done.Ran? && ValidCore(done.core) && pb <= BufferSize
    ensures r.Done? ==> r.run == done || r.run == Crashed(CompareOverrun)
    ensures r.ToBody? <==> Compare(done.core.line.buf, pb, PostPrefix) == Same
    ensures r.ToBody? ==> r.prior == done.events && ValidCore(r.core) && r.io == done.io
    ensures r.ToBody? ==>
      && r.core == done.core.(bufferPos := 0, missing := 0)
      && r.channel == channel && r.packageBytes == bodyLen
  {
    match Compare(done.core.line.buf, pb, PostPrefix)
    case Overrun => Done(Crashed(CompareOverrun))
    case Differs => Done(done)
    case Same => ToBody(done.events, Restart(done.core), done.io, channel, bodyLen)
  }

  /** A request: the GET test, then the POST test. */
  function Request(html: seq<byte>, c: Core, io: Io, channel: int, pb: nat, bodyLen: int): (r: Route)
    requires ValidCore(c) && pb <= BufferSize
    ensures r.Done? && r.run.Ran? ==> ValidCore(r.run.core) && IsSuffix(r.run.io.input, io.input)
    ensures r.Done? && r.run.Crashed? ==> r.run.fault != ReadBeforeLine
    ensures r.ToBody? ==> ValidCore(r.core) && IsSuffix(r.io.input, io.input)
  {
    var afterGet := GetTest(html, c, io, channel, pb);
    if !afterGet.Ran? then Done(afterGet) else PostTest(afterGet, channel, pb, bodyLen)
  }

  /** What the frame tests read from the buffer: not a `+IPD` frame, a
      length that is not positive, no ':' before the end of the buffer, or
      a packet with its channel, its length and `pb`, the index just after
      its ':'. */
  datatype Header = NotIpd | Empty | NoColon | Packet(channel: int, len: int, pb: nat)

  function ReadHeader(buf: seq<byte>, junk: Junk): (r: Header)
    requires |buf| == BufferSize
    ensures r == NotIpd <==> buf[..5] != IpdPrefix
    ensures r.Packet? ==> 6 <= r.pb <= BufferSize && buf[r.pb - 1] == Colon && r.len > 0
    ensures r.Packet? ==> (r.channel, r.len) == ParseIpd(buf, junk)
  {
    if buf[..5] != IpdPrefix then NotIpd
    else
      var (channel, packetLen) := ParseIpd(buf, junk);
      if packetLen <= 0 then Empty
      else
        match ColonFrom(buf, 5)
        case None => NoColon
        case Some(q) => Packet(channel, packetLen, q + 1)
  }

  /** The body bytes still due in this packet: the packet length less the
      bytes of the frame that follow the header's ':' at `pb`. */
  function BodyLeft(packetLen: int, bytesRead: int, pb: int): (left: int) {
    packetLen - (bytesRead - pb)
  }

  /** The frame tests of `loopWebServer` up to the call of `readPost`. */
  function RouteFrame(html: seq<byte>, c: Core, io: Io, n: nat, junk: Junk): (r: Route)
    requires ValidCore(c)
    ensures r.Done? && r.run.Ran? ==> ValidCore(r.run.core) && IsSuffix(r.run.io.input, io.input)
    ensures r.Done? && r.run.Crashed? ==> r.run.fault != ReadBeforeLine
    ensures r.ToBody? ==> ValidCore(r.core) && IsSuffix(r.io.input, io.input)
  {
    match ReadHeader(c.line.buf, junk)
    case NotIpd => Done(Ran(c, io, []))
    case Empty => Done(Ran(c, io, []))
    case NoColon => Done(Crashed(ColonOverrun))
    case Packet(channel, len, pb) =>
      if c.missing > 0 then ToBody([], c, io, channel, len)
      else Request(html, c, io, channel, pb, BodyLeft(len, n, pb))
  }

  /** An outcome with what was sent before it. */
  function Then(prior: seq<Event>, r: Run): (s: Run)
    ensures s.Ran? <==> r.Ran?
    ensures s.Ran? ==> s.core == r.core && s.io == r.io && s.events == prior + r.events
    ensures !s.Ran? ==> s == r
  {
    match r
    case Ran(c, io, events) => Ran(c, io, prior + events)
    case Blocked => Blocked
    case Crashed(f) => Crashed(f)
  }

  /** What `loopWebServer` does with a complete frame of `n` bytes. */
  function Dispatch(html: seq<byte>, c: Core, io: Io, n: nat, junk: Junk): (r: Run)
    requires ValidCore(c)
    ensures r.Ran? ==> ValidCore(r.core) && IsSuffix(r.io.input, io.input)
    ensures r.Crashed? ==> r.fault != ReadBeforeLine
    // a frame without the prefix, or whose length field does not read as
    // positive, whatever the junk it falls back on, is dropped
    ensures c.line.buf[..5] != IpdPrefix ==> r == Ran(c, io, [])
    ensures c.line.buf[..5] == IpdPrefix && ParseIpd(c.line.buf, junk).1 <= 0 ==> r == Ran(c, io, [])
  {
    match RouteFrame(html, c, io, n, junk)
    case Done(r) => r
    case ToBody(prior, c1, io1, channel, packageBytes) =>
      var r := ReadPost(c1, io1, channel, packageBytes);
      if r.Ran? then SuffixTrans(r.io.input, io1.input, io.input); Then(prior, r)
      else Then(prior, r)
  }

  /** `loopWebServer()`: one call of `read_till_eol` and, when it completes
      a frame, its dispatch. `junk` stands for the uninitialised locals. */
  function LoopWebServer(html: seq<byte>, c: Core, io: Io, junk: Junk): (r: Run)
    requires ValidCore(c)
    ensures r.Ran? ==> ValidCore(r.core) && IsSuffix(r.io.input, io.input)
    // with no byte waiting, a call does nothing
    ensures |io.input| == 0 ==> r == Ran(c, io, [])
    // the 1024th byte of a POST continuation makes the terminator test read
    // `buffer[-1]`; nothing else does
    ensures r == Crashed(ReadBeforeLine) <==>
      |io.input| > 0 && c.missing > 0 && c.line.idx == BufferSize - 1
  {
    var t := ReadTillEol(c.line, c.missing, io.input);
    ReadTillEolReports(c.line, c.missing, io.input);
    match t.poll
    case NoByte => Ran(c, io, [])
    case ReadBeforeBuffer => Crashed(ReadBeforeLine)
    case Partial => Ran(c.(line := t.line), io.(input := io.input[1..]), [])
    case Frame(n) =>
      var r := Dispatch(html, c.(line := t.line), io.(input := io.input[1..]), n, junk);
      if r.Ran? then SuffixTrans(r.io.input, io.input[1..], io.input); r else r
  }

  /** `loop()` calling `loopWebServer()` once per element of `junks`, each
      call with its own uninitialised locals; a crash or a busy loop that
      never ends stops the run. */
  function Steps(html: seq<byte>, c: Core, io: Io, junks: seq<Junk>): (r: Run)
    requires ValidCore(c)
    ensures r.Ran? ==> ValidCore(r.core) && IsSuffix(r.io.input, io.input)
    decreases |junks|
  {
    if junks == [] then Ran(c, io, [])
    else
      var first := LoopWebServer(html, c, io, junks[0]);
      if !first.Ran? then first
      else
        var r := Steps(html, first.core, first.io, junks[1..]);
        if r.Ran? then SuffixTrans(r.io.input, first.io.input, io.input); Then(first.events, r)
        else r
  }

  /** The first `k` bytes of `h` end a frame: on a ':' while a POST body is
      outstanding, or on CR LF. */
  predicate EndsFrame(h: seq<byte>, k: int, missing: int)
    requires 1 <= k <= |h|
  {
    (missing > 0 && h[k - 1] == Colon) || CrlfEndsAt(h, k)
  }

  /** `h` is exactly one frame: it fits the buffer without wrapping the index
      and ends at its first terminator. */
  predicate IsFrame(h: seq<byte>, missing: int) {
    && 1 <= |h| < BufferSize
    && EndsFrame(h, |h|, missing)
    && forall k :: 1 <= k < |h| ==> !EndsFrame(h, k, missing)
  }

  /** The buffer once the frame `h` has been read over `b` from index 0. */
  function Filled(b: seq<byte>, h: seq<byte>): (r: seq<byte>)
    requires |h| < |b|
    ensures |r| == |b| && r[..|h|] == h && r[|h|] == NUL
  {
    h + [NUL] + b[|h| + 1..]
  }

  /** A call that buffers a byte without completing a frame does nothing
      else. */
  lemma StepBuffers(html: seq<byte>, c: Core, io: Io, junk: Junk)
    requires ValidCore(c) && ReadTillEol(c.line, c.missing, io.input).poll == Partial
    ensures LoopWebServer(html, c, io, junk) ==
      Ran(c.(line := ReadTillEol(c.line, c.missing, io.input).line), io.(input := io.input[1..]), [])
  {
  }

  /** A call that completes a frame dispatches it. */
  lemma StepDispatches(html: seq<byte>, c: Core, io: Io, junk: Junk)
    requires ValidCore(c) && ReadTillEol(c.line, c.missing, io.input).poll.Frame?
    ensures var t := ReadTillEol(c.line, c.missing, io.input);
      LoopWebServer(html, c, io, junk) ==
      Dispatch(html, c.(line := t.line), io.(input := io.input[1..]), t.poll.len, junk)
  {
  }

  /** A call that does nothing but consume its byte passes the rest of the
      run on. */
  lemma {:induction false} StepsSkip(html: seq<byte>, c: Core, io: Io, junks: seq<Junk>, c1: Core, io1: Io)
    requires ValidCore(c) && ValidCore(c1) && junks != []
    requires LoopWebServer(html, c, io, junks[0]) == Ran(c1, io1, [])
    ensures Steps(html, c, io, junks) == Steps(html, c1, io1, junks[1..])
  {
    var r := Steps(html, c1, io1, junks[1..]);
    assert r.Ran? ==> [] + r.events == r.events;
  }

  /** A run of one call is that call. */
  lemma {:induction false} StepsOne(html: seq<byte>, c: Core, io: Io, junk: Junk)
    requires ValidCore(c)
    ensures Steps(html, c, io, [junk]) == LoopWebServer(html, c, io, junk)
  {
    var d := LoopWebServer(html, c, io, junk);
    assert [junk][1..] == [];
    assert d.Ran? ==> d.events + [] == d.events;
  }

  /** One byte of a frame, `m` bytes in: the last byte completes the frame
      over the old buffer contents, any other is buffered. */
  lemma FrameByte(l: Line, missing: int, h: seq<byte>, m: nat, b: seq<byte>, rest: seq<byte>)
    requires ValidLine(l) && IsFrame(h, missing) && m < |h|
    requires l.idx == m && |b| == BufferSize && l.buf == h[..m] + b[m..]
    ensures var t := ReadTillEol(l, missing, h[m..] + rest);
      && (m + 1 == |h| ==> t == Tick(Line(Filled(b, h), 0), Frame(|h|)))
      && (m + 1 < |h| ==> t == Tick(Line(h[..m + 1] + b[m + 1..], m + 1), Partial))
  {
    var input := h[m..] + rest;
    assert input[0] == h[m];
    var w := l.buf[m := h[m]];
    assert w == h[..m + 1] + b[m + 1..];
    assert w[m] == h[m];
    assert m > 0 ==> w[m - 1] == h[m - 1];
    if m + 1 == |h| {
      assert h[..m + 1] == h;
      assert w[m + 1 := NUL] == Filled(b, h);
    } else {
      assert !EndsFrame(h, m + 1, missing);
    }
  }

  /** The last byte of a frame dispatches it from the filled buffer. */
  lemma {:induction false} StepsLastFrameByte(html: seq<byte>, c: Core, io: Io, h: seq<byte>, m: nat,
                                              b: seq<byte>, rest: seq<byte>, junks: seq<Junk>)
    requires ValidCore(c) && IsFrame(h, c.missing) && m + 1 == |h|
    requires c.line.idx == m && |b| == BufferSize && c.line.buf == h[..m] + b[m..]
    requires io.input == h[m..] + rest && |junks| == 1
    ensures Steps(html, c, io, junks) ==
      Dispatch(html, c.(line := Line(Filled(b, h), 0)), io.(input := rest), |h|, junks[0])
  {
    FrameByte(c.line, c.missing, h, m, b, rest);
    assert io.input[1..] == rest;
    StepDispatches(html, c, io, junks[0]);
    assert junks == [junks[0]];
    StepsOne(html, c, io, junks[0]);
  }

  /** A byte before the last one of a frame is only buffered. */
  lemma {:induction false} StepsInnerFrameByte(html: seq<byte>, c: Core, io: Io, h: seq<byte>, m: nat,
                                               b: seq<byte>, rest: seq<byte>, junks: seq<Junk>)
    requires ValidCore(c) && IsFrame(h, c.missing) && m + 1 < |h|
    requires c.line.idx == m && |b| == BufferSize && c.line.buf == h[..m] + b[m..]
    requires io.input == h[m..] + rest && |junks| == |h| - m
    ensures Steps(html, c, io, junks) ==
      Steps(html, c.(line := Line(h[..m + 1] + b[m + 1..], m + 1)), io.(input := h[m + 1..] + rest), junks[1..])
  {
    FrameByte(c.line, c.missing, h, m, b, rest);
    assert io.input[1..] == h[m + 1..] + rest;
    StepBuffers(html, c, io, junks[0]);
    StepsSkip(html, c, io, junks, c.(line := Line(h[..m + 1] + b[m + 1..], m + 1)), io.(input := h[m + 1..] + rest));
  }

  /** Reading a frame byte by byte, `m` bytes in: the calls before the last
      do nothing else, and the last one dispatches the whole frame. */
  lemma {:induction false} StepsThroughFrame(html: seq<byte>, c: Core, io: Io, h: seq<byte>, m: nat,
                                             b: seq<byte>, rest: seq<byte>, junks: seq<Junk>)
    requires ValidCore(c) && IsFrame(h, c.missing) && m < |h|
    requires c.line.idx == m && |b| == BufferSize && c.line.buf == h[..m] + b[m..]
    requires io.input == h[m..] + rest && |junks| == |h| - m
    ensures Steps(html, c, io, junks) ==
      Dispatch(html, c.(line := Line(Filled(b, h), 0)), io.(input := rest), |h|, junks[|junks| - 1])
    decreases |h| - m
  {
    if m + 1 == |h| {
      StepsLastFrameByte(html, c, io, h, m, b, rest, junks);
    } else {
      StepsInnerFrameByte(html, c, io, h, m, b, rest, junks);
      var c1 := c.(line := Line(h[..m + 1] + b[m + 1..], m + 1));
      StepsThroughFrame(html, c1, io.(input := h[m + 1..] + rest), h, m + 1, b, rest, junks[1..]);
    }
  }

  /** The buffer and index once the frame `h` has been read from index 0. */
  function AfterFrame(c: Core, h: seq<byte>): (c1: Core)
    requires ValidCore(c) && |h| < BufferSize
    ensures ValidCore(c1) && c1.line.idx == 0
    ensures c1.line.buf[..|h|] == h && c1.line.buf[|h|] == NUL
    ensures c1 == c.(line := c1.line)
  {
    c.(line := Line(Filled(c.line.buf, h), 0))
  }

  /** Reading a whole frame from a reset index: one call per byte, and the
      last one dispatches the frame from the filled buffer. */
  lemma {:induction false} StepsToDispatch(html: seq<byte>, c: Core, io: Io, h: seq<byte>,
                                           rest: seq<byte>, junks: seq<Junk>)
    requires ValidCore(c) && c.line.idx == 0 && IsFrame(h, c.missing)
    requires io.input == h + rest && |junks| == |h|
    ensures Steps(html, c, io, junks) ==
      Dispatch(html, AfterFrame(c, h), io.(input := rest), |h|, junks[|junks| - 1])
  {
    assert c.line.buf == h[..0] + c.line.buf[0..];
    assert io.input == h[0..] + rest;
    StepsThroughFrame(html, c, io, h, 0, c.line.buf, rest, junks);
  }

  /** A frame that does not start with "+IPD," leads nowhere. */
  lemma RouteIgnores(html: seq<byte>, c: Core, io: Io, n: nat, junk: Junk)
    requires ValidCore(c) && c.line.buf[..5] != IpdPrefix
    ensures Dispatch(html, c, io, n, junk) == Ran(c, io, [])
  {
  }

  /** A packet header while a POST body is outstanding leads to `readPost`
      with the packet length. */
  lemma RouteForwards(html: seq<byte>, c: Core, io: Io, n: nat, junk: Junk, channel: int, len: int, pb: nat)
    requires ValidCore(c) && c.missing > 0 && ReadHeader(c.line.buf, junk) == Packet(channel, len, pb)
    ensures RouteFrame(html, c, io, n, junk) == ToBody([], c, io, channel, len)
  {
  }

  /** A packet without a body outstanding is a request. */
  lemma RouteRequest(html: seq<byte>, c: Core, io: Io, n: nat, junk: Junk, channel: int, len: int, pb: nat)
    requires ValidCore(c) && c.missing <= 0 && ReadHeader(c.line.buf, junk) == Packet(channel, len, pb)
    ensures RouteFrame(html, c, io, n, junk) == Request(html, c, io, channel, pb, BodyLeft(len, n, pb))
  {
  }

  /** "POST /" is not "GET /". */
  lemma {:induction false} PostIsNotGet(buf: seq<byte>, at: nat)
    requires at <= |buf| && Compare(buf, at, PostPrefix) == Same
    ensures Compare(buf, at, GetPrefix) == Differs
  {
    assert buf[at] == PostPrefix[0];
  }

  /** A POST request leads to `readPost` with the counters reset. */
  lemma {:induction false} PostRequest(html: seq<byte>, c: Core, io: Io, channel: int, pb: nat, bodyLen: int)
    requires ValidCore(c) && pb <= BufferSize && Compare(c.line.buf, pb, PostPrefix) == Same
    ensures Request(html, c, io, channel, pb, bodyLen) ==
      ToBody([], Restart(c), io, channel, bodyLen)
  {
    PostIsNotGet(c.line.buf, pb);
  }

  /** A GET request sends the page before the POST test. */
  lemma {:induction false} GetRequest(html: seq<byte>, c: Core, io: Io, channel: int, pb: nat, bodyLen: int)
    requires ValidCore(c) && pb <= BufferSize && Compare(c.line.buf, pb, GetPrefix) == Same
    ensures var g := ServeGet(html, c, io, channel);
      Request(html, c, io, channel, pb, bodyLen) ==
        if g.Ran? then PostTest(g, channel, pb, bodyLen) else Done(g)
  {
  }

  /** Dispatch through `readPost`. */
  lemma DispatchToBody(html: seq<byte>, c: Core, io: Io, n: nat, junk: Junk, c1: Core, io1: Io, channel: int, pb: int)
    requires ValidCore(c) && ValidCore(c1)
    requires RouteFrame(html, c, io, n, junk) == ToBody([], c1, io1, channel, pb)
    ensures Dispatch(html, c, io, n, junk) == ReadPost(c1, io1, channel, pb)
  {
    var r := ReadPost(c1, io1, channel, pb);
    assert r.Ran? ==> [] + r.events == r.events;
  }

  /** What `readPost` answers follows what was sent before it. */
  lemma DispatchKeepsPrior(html: seq<byte>, c: Core, io: Io, n: nat, junk: Junk)
    requires ValidCore(c)
    ensures var t := RouteFrame(html, c, io, n, junk);
      var r := Dispatch(html, c, io, n, junk);
      && (t.Done? ==> r == t.run)
      && (t.ToBody? && r.Ran? ==> t.prior <= r.events)
  {
  }

  /** No frame that lacks the prefix fills the buffer with it. */
  lemma FilledNotIpd(b: seq<byte>, h: seq<byte>)
    requires |h| < |b| && 5 <= |b|
    requires !(5 <= |h| && h[..5] == IpdPrefix)
    ensures Filled(b, h)[..5] != IpdPrefix
  {
    var buf := Filled(b, h);
    if |h| < 5 {
      assert buf[|h|] != IpdPrefix[|h|];
    } else {
      assert buf[..5] == buf[..|h|][..5];
    }
  }

  /** A frame without the prefix, read into the buffer, is dispatched to
      nothing. */
  lemma OtherFrameDispatches(html: seq<byte>, c: Core, io: Io, h: seq<byte>, junk: Junk)
    requires ValidCore(c) && IsFrame(h, c.missing)
    requires !(5 <= |h| && h[..5] == IpdPrefix)
    ensures Dispatch(html, AfterFrame(c, h), io, |h|, junk) == Ran(AfterFrame(c, h), io, [])
  {
    FilledNotIpd(c.line.buf, h);
    RouteIgnores(html, AfterFrame(c, h), io, |h|, junk);
  }

  /** A frame that does not start with "+IPD," is read and dropped: the
      calls answer nothing and change nothing but the line buffer. */
  lemma {:induction false} IgnoresOtherFrames(html: seq<byte>, c: Core, io: Io, h: seq<byte>, rest: seq<byte>, junks: seq<Junk>)
    requires ValidCore(c) && c.line.idx == 0 && IsFrame(h, c.missing)
    requires !(5 <= |h| && h[..5] == IpdPrefix)
    requires io.input == h + rest && |junks| == |h|
    ensures Steps(html, c, io, junks) == Ran(AfterFrame(c, h), io.(input := rest), [])
  {
    StepsToDispatch(html, c, io, h, rest, junks);
    OtherFrameDispatches(html, c, io.(input := rest), h, junks[|junks| - 1]);
  }

  /** The bytes of a `+IPD` header are neither ':' nor CR before its end. */
  lemma HeaderBytes(channel: nat, len: nat)
    ensures var h := IpdHeader(channel, len);
      forall k :: 0 <= k < |h| - 1 ==> h[k] != Colon && h[k] != CR
  {
    var h := IpdHeader(channel, len);
    var dc := Decimal(channel);
    var dl := Decimal(len);
    forall k | 0 <= k < |h| - 1
      ensures h[k] != Colon && h[k] != CR
    {
      if k < 5 {
        assert h[k] == IpdPrefix[k];
      } else if k < 5 + |dc| {
        assert h[k] == dc[k - 5];
      } else if k > 5 + |dc| {
        assert h[k] == dl[k - 6 - |dc|];
      }
    }
  }

  /** The search for ':' after "+IPD," stops at the colon of the header. */
  lemma {:induction false} HeaderColon(buf: seq<byte>, channel: nat, len: nat)
    requires |IpdHeader(channel, len)| < |buf|
    requires buf[..|IpdHeader(channel, len)|] == IpdHeader(channel, len)
    ensures ColonFrom(buf, 5) == Some(|IpdHeader(channel, len)| - 1)
  {
    var h := IpdHeader(channel, len);
    HeaderBytes(channel, len);
    assert buf[|h| - 1] == h[|h| - 1];
    assert forall j :: 5 <= j < |h| - 1 ==> buf[j] == h[j];
  }

  /** What the frame tests read from a buffer that starts with a `+IPD`
      header: the channel and length written there, and its colon. */
  lemma ReadsHeader(buf: seq<byte>, channel: nat, len: nat, junk: Junk)
    requires |buf| == BufferSize && len > 0 && |IpdHeader(channel, len)| < |buf|
    requires buf[..|IpdHeader(channel, len)|] == IpdHeader(channel, len)
    ensures ReadHeader(buf, junk) == Packet(channel, len, |IpdHeader(channel, len)|)
  {
    var h := IpdHeader(channel, len);
    assert buf[..5] == h[..5];
    ParseIpdHeader(buf, channel, len, junk);
    HeaderColon(buf, channel, len);
  }

  /** A frame that starts with a header and a request literal leaves both at
      the front of the buffer. */
  lemma {:induction false} RequestInBuffer(b: seq<byte>, h: seq<byte>, hd: seq<byte>, lit: seq<byte>)
    requires |h| < |b| && |hd| + |lit| <= |h| && h[..|hd| + |lit|] == hd + lit
    ensures Filled(b, h)[..|hd|] == hd
    ensures Compare(Filled(b, h), |hd|, lit) == Same
  {
    var buf := Filled(b, h);
    assert buf[..|hd|] == h[..|hd| + |lit|][..|hd|];
    assert buf[|hd|..|hd| + |lit|] == h[..|hd| + |lit|][|hd|..];
  }

  /** The header of a continuation packet ends a frame at its colon. */
  lemma HeaderIsFrame(channel: nat, len: nat, missing: int)
    requires missing > 0 && |IpdHeader(channel, len)| < BufferSize
    ensures IsFrame(IpdHeader(channel, len), missing)
  {
    HeaderBytes(channel, len);
  }

  /** A buffer holding a `+IPD` header while a POST body is outstanding
      dispatches to `readPost` with the packet's whole length. */
  lemma ForwardDispatches(html: seq<byte>, c: Core, io: Io, n: nat, junk: Junk, channel: nat, len: nat)
    requires ValidCore(c) && c.missing > 0 && len > 0
    requires |IpdHeader(channel, len)| < BufferSize
    requires c.line.buf[..|IpdHeader(channel, len)|] == IpdHeader(channel, len)
    ensures Dispatch(html, c, io, n, junk) == ReadPost(c, io, channel, len)
  {
    var hd := IpdHeader(channel, len);
    ReadsHeader(c.line.buf, channel, len, junk);
    RouteForwards(html, c, io, n, junk, channel, len, |hd|);
    DispatchToBody(html, c, io, n, junk, c, io, channel, len);
  }

  /** The same, once the header has been read into the buffer as a frame. */
  lemma ForwardFrameDispatches(html: seq<byte>, c: Core, io: Io, junk: Junk, channel: nat, len: nat)
    requires ValidCore(c) && c.missing > 0 && len > 0
    requires |IpdHeader(channel, len)| < BufferSize
    ensures var h := IpdHeader(channel, len);
      Dispatch(html, AfterFrame(c, h), io, |h|, junk) == ReadPost(AfterFrame(c, h), io, channel, len)
  {
    var h := IpdHeader(channel, len);
    ForwardDispatches(html, AfterFrame(c, h), io, |h|, junk, channel, len);
  }

  /** While a POST body is outstanding, the next packet's header is framed at
      its colon and `readPost` is called with the packet's whole length, as
      if none of it had been buffered. */
  lemma {:induction false} ForwardsContinuation(html: seq<byte>, c: Core, io: Io, channel: nat, len: nat,
                             rest: seq<byte>, junks: seq<Junk>)
    requires ValidCore(c) && c.line.idx == 0 && c.missing > 0 && len > 0
    requires |IpdHeader(channel, len)| < BufferSize
    requires io.input == IpdHeader(channel, len) + rest && |junks| == |IpdHeader(channel, len)|
    ensures Steps(html, c, io, junks) ==
      ReadPost(AfterFrame(c, IpdHeader(channel, len)), io.(input := rest), channel, len)
  {
    HeaderIsFrame(channel, len, c.missing);
    StepsToDispatch(html, c, io, IpdHeader(channel, len), rest, junks);
    ForwardFrameDispatches(html, c, io.(input := rest), junks[|junks| - 1], channel, len);
  }

  /** A buffer holding a `+IPD` header and then "POST /" routes to
      `readPost` with the counters restarted and the packet length less the
      `n` bytes of the frame after the header. */
  lemma RoutesPost(html: seq<byte>, c: Core, io: Io, n: nat, junk: Junk, channel: nat, len: nat)
    requires ValidCore(c) && c.missing <= 0 && len > 0
    requires |IpdHeader(channel, len)| < BufferSize
    requires c.line.buf[..|IpdHeader(channel, len)|] == IpdHeader(channel, len)
    requires Compare(c.line.buf, |IpdHeader(channel, len)|, PostPrefix) == Same
    ensures RouteFrame(html, c, io, n, junk) ==
      ToBody([], Restart(c), io, channel, BodyLeft(len, n, |IpdHeader(channel, len)|))
  {
    var hd := IpdHeader(channel, len);
    ReadsHeader(c.line.buf, channel, len, junk);
    RouteRequest(html, c, io, n, junk, channel, len, |hd|);
    PostRequest(html, c, io, channel, |hd|, BodyLeft(len, n, |hd|));
  }

  /** A buffer holding a `+IPD` header and then "POST /" dispatches to
      `readPost` with the counters restarted. */
  lemma PostDispatches(html: seq<byte>, c: Core, io: Io, n: nat, junk: Junk, channel: nat, len: nat)
    requires ValidCore(c) && c.missing <= 0 && len > 0
    requires |IpdHeader(channel, len)| < BufferSize
    requires c.line.buf[..|IpdHeader(channel, len)|] == IpdHeader(channel, len)
    requires Compare(c.line.buf, |IpdHeader(channel, len)|, PostPrefix) == Same
    ensures Dispatch(html, c, io, n, junk) ==
      ReadPost(Restart(c), io, channel, BodyLeft(len, n, |IpdHeader(channel, len)|))
  {
    var hd := IpdHeader(channel, len);
    RoutesPost(html, c, io, n, junk, channel, len);
    DispatchToBody(html, c, io, n, junk, Restart(c), io, channel, BodyLeft(len, n, |hd|));
  }

  /** The same, once a frame that starts with the header and "POST /" has
      been read into the buffer. */
  lemma PostFrameDispatches(html: seq<byte>, c: Core, io: Io, h: seq<byte>, junk: Junk, channel: nat, len: nat)
    requires ValidCore(c) && c.missing <= 0 && len > 0 && IsFrame(h, c.missing)
    requires |IpdHeader(channel, len)| + |PostPrefix| <= |h|
    requires h[..|IpdHeader(channel, len)| + |PostPrefix|] == IpdHeader(channel, len) + PostPrefix
    ensures Dispatch(html, AfterFrame(c, h), io, |h|, junk) ==
      ReadPost(Restart(AfterFrame(c, h)), io, channel, BodyLeft(len, |h|, |IpdHeader(channel, len)|))
  {
    RequestInBuffer(c.line.buf, h, IpdHeader(channel, len), PostPrefix);
    PostDispatches(html, AfterFrame(c, h), io, |h|, junk, channel, len);
  }

  /** A request line that starts a POST restarts the body counters and hands
      `readPost` the packet length less the bytes of this line. */
  lemma {:induction false} StartsPost(html: seq<byte>, c: Core, io: Io, channel: nat, len: nat, h: seq<byte>,
                   rest: seq<byte>, junks: seq<Junk>)
    requires ValidCore(c) && c.line.idx == 0 && c.missing <= 0 && len > 0
    requires IsFrame(h, c.missing)
    requires |IpdHeader(channel, len)| + |PostPrefix| <= |h|
    requires h[..|IpdHeader(channel, len)| + |PostPrefix|] == IpdHeader(channel, len) + PostPrefix
    requires io.input == h + rest && |junks| == |h|
    ensures Steps(html, c, io, junks) ==
      ReadPost(Restart(AfterFrame(c, h)), io.(input := rest), channel,
               BodyLeft(len, |h|, |IpdHeader(channel, len)|))
  {
    StepsToDispatch(html, c, io, h, rest, junks);
    PostFrameDispatches(html, c, io.(input := rest), h, junks[|junks| - 1], channel, len);
  }

  /** A buffer holding a `+IPD` header and then "GET /" routes to the page
      sender, and then to the POST test on what it left in the buffer. */
  lemma RoutesGet(html: seq<byte>, c: Core, io: Io, n: nat, junk: Junk, channel: nat, len: nat)
    requires ValidCore(c) && c.missing <= 0 && len > 0
    requires |IpdHeader(channel, len)| < BufferSize
    requires c.line.buf[..|IpdHeader(channel, len)|] == IpdHeader(channel, len)
    requires Compare(c.line.buf, |IpdHeader(channel, len)|, GetPrefix) == Same
    ensures var g := ServeGet(html, c, io, channel);
      var pb := |IpdHeader(channel, len)|;
      RouteFrame(html, c, io, n, junk) ==
        if g.Ran? then PostTest(g, channel, pb, BodyLeft(len, n, pb)) else Done(g)
  {
    var hd := IpdHeader(channel, len);
    ReadsHeader(c.line.buf, channel, len, junk);
    RouteRequest(html, c, io, n, junk, channel, len, |hd|);
    GetRequest(html, c, io, channel, |hd|, BodyLeft(len, n, |hd|));
  }

  /** A buffer holding a `+IPD` header and then "GET /" dispatches to the
      page sender: a failure to send is the outcome, and otherwise the
      outcome's events begin with what the sender did. */
  lemma GetDispatches(html: seq<byte>, c: Core, io: Io, n: nat, junk: Junk, channel: nat, len: nat)
    requires ValidCore(c) && c.missing <= 0 && len > 0
    requires |IpdHeader(channel, len)| < BufferSize
    requires c.line.buf[..|IpdHeader(channel, len)|] == IpdHeader(channel, len)
    requires Compare(c.line.buf, |IpdHeader(channel, len)|, GetPrefix) == Same
    ensures var g := ServeGet(html, c, io, channel);
      var r := Dispatch(html, c, io, n, junk);
      && (!g.Ran? ==> r == g)
      && (g.Ran? && r.Ran? ==> g.events <= r.events)
  {
    RoutesGet(html, c, io, n, junk, channel, len);
    DispatchKeepsPrior(html, c, io, n, junk);
  }

  /** The same, once a frame that starts with the header and "GET /" has
      been read into the buffer. */
  lemma GetFrameDispatches(html: seq<byte>, c: Core, io: Io, h: seq<byte>, junk: Junk, channel: nat, len: nat)
    requires ValidCore(c) && c.missing <= 0 && len > 0 && IsFrame(h, c.missing)
    requires |IpdHeader(channel, len)| + |GetPrefix| <= |h|
    requires h[..|IpdHeader(channel, len)| + |GetPrefix|] == IpdHeader(channel, len) + GetPrefix
    ensures var g := ServeGet(html, AfterFrame(c, h), io, channel);
      var r := Dispatch(html, AfterFrame(c, h), io, |h|, junk);
      && (!g.Ran? ==> r == g)
      && (g.Ran? && r.Ran? ==> g.events <= r.events)
  {
    RequestInBuffer(c.line.buf, h, IpdHeader(channel, len), GetPrefix);
    GetDispatches(html, AfterFrame(c, h), io, |h|, junk, channel, len);
  }

  /** A request line that starts a GET sends the page: a failure to send is
      the outcome, and otherwise what the call answers begins with the page. */
  lemma {:induction false} ServesGet(html: seq<byte>, c: Core, io: Io, channel: nat, len: nat, h: seq<byte>,
                  rest: seq<byte>, junks: seq<Junk>)
    requires ValidCore(c) && c.line.idx == 0 && c.missing <= 0 && len > 0
    requires IsFrame(h, c.missing)
    requires |IpdHeader(channel, len)| + |GetPrefix| <= |h|
    requires h[..|IpdHeader(channel, len)| + |GetPrefix|] == IpdHeader(channel, len) + GetPrefix
    requires io.input == h + rest && |junks| == |h|
    ensures var g := ServeGet(html, AfterFrame(c, h), io.(input := rest), channel);
      var r := Steps(html, c, io, junks);
      && (!g.Ran? ==> r == g)
      && (g.Ran? && r.Ran? ==> g.events <= r.events)
  {
    StepsToDispatch(html, c, io, h, rest, junks);
    GetFrameDispatches(html, c, io.(input := rest), h, junks[|junks| - 1], channel, len);
  }
}

=== FILE: waiter.dfy ===
/** `waitForResponse`: read the modem's bytes into the shared line buffer
    until they end with a target token or the deadline passes. */
module Waiter {
  import opened Bytes
  import opened LineFramer

  /** The serial port and the clock. `input` is every byte the modem will
      send, in order; `windows[k]` is how many bytes arrive before the k-th
      bounded wait times out. A wait with no listed window sees its deadline
      pass before any byte arrives. */
  datatype Io = Io(input: seq<byte>, windows: seq<nat>)

  /** `a` is what is left of `b` after reading some bytes from its front. */
  predicate IsSuffix(a: seq<byte>, b: seq<byte>) {
    |a| <= |b| && a == b[|b| - |a|..]
  }

  lemma SuffixTrans(a: seq<byte>, b: seq<byte>, c: seq<byte>)
    requires IsSuffix(a, b) && IsSuffix(b, c)
    ensures IsSuffix(a, c)
  {
  }

  function Window(io: Io): (w: nat) {
    if |io.windows| > 0 then io.windows[0] else 0
  }

  function LaterWindows(io: Io): (ws: seq<nat>) {
    if |io.windows| > 0 then io.windows[1..] else []
  }

  /** Number of bytes a bounded wait may read: what arrives in time. */
  function Limit(io: Io): (n: nat) {
    if Window(io) < |io.input| then Window(io) else |io.input|
  }

  /** The default token, and the one that confirms a completed send. */
  const OkTerm: seq<byte> := Ascii("OK\r\n")
  const SendOkTerm: seq<byte> := Ascii("SEND OK\r\n")

  /** The first `k` bytes of `s` end with `term`; there is nothing to
      compare until at least `|term|` bytes have been read. */
  predicate EndsAt(s: seq<byte>, k: int, term: seq<byte>) {
    |term| <= k <= |s| && s[k - |term|..k] == term
  }

  /** Read bytes `i+1`, `i+2`, ... of `s`, up to `limit`, stopping after the
      first one that completes `term`. Returns whether it was found and how
      many bytes were read in all. */
  function Scan(s: seq<byte>, term: seq<byte>, i: nat, limit: nat): (r: (bool, nat))
    requires i <= limit <= |s|
    ensures i <= r.1 <= limit
    ensures r.0 ==> i < r.1 && EndsAt(s, r.1, term)
    ensures !r.0 ==> r.1 == limit && (r.1 == i || !EndsAt(s, r.1, term))
    ensures forall j :: i < j < r.1 ==> !EndsAt(s, j, term)
    decreases limit - i
  {
    if i == limit then (false, i)
    else if EndsAt(s, i + 1, term) then (true, i + 1)
    else Scan(s, term, i + 1, limit)
  }

  datatype Waited =
    | Waited(found: bool, line: Line, io: Io)
    | Overflow   // the bytes read reached `buffer[1024]`

  /** One call of `waitForResponse(timeout, term)`. The bytes read overwrite
      the front of the line buffer, followed by a NUL; the index of
      `read_till_eol` is not touched. What it reads and reports is stated
      by `WaitReadsToFirstMatch`. */
  function Wait(line: Line, io: Io, term: seq<byte>): (r: Waited)
    requires ValidLine(line)
    ensures r.Waited? ==> ValidLine(r.line) && r.line.idx == line.idx
    ensures r.Waited? ==> IsSuffix(r.io.input, io.input)
  {
    var (found, n) := Scan(io.input, term, 0, Limit(io));
    if n >= BufferSize then Overflow
    else
      Waited(found, Line(io.input[..n] + [NUL] + line.buf[n + 1..], line.idx),
             Io(io.input[n..], LaterWindows(io)))
  }

  /** What a wait reads and reports. */
  lemma WaitReadsToFirstMatch(line: Line, io: Io, term: seq<byte>)
    requires ValidLine(line)
    ensures var r := Wait(line, io, term);
      // It fails only by writing past the buffer: when 1024 or more bytes
      // arrive in time and none of the first 1023 completes the token.
      && (r.Overflow? <==>
           Limit(io) >= BufferSize && forall j :: 0 < j < BufferSize ==> !EndsAt(io.input, j, term))
      && (r.Waited? ==>
        var n := |io.input| - |r.io.input|;
        && 0 <= n <= Limit(io) && n < BufferSize
        && r.io.input == io.input[n..]
        && r.io.windows == LaterWindows(io)
        // success exactly when the bytes read end with the token ...
        && (r.found <==> 0 < n && EndsAt(io.input, n, term))
        // ... at the first point they do, or else at the deadline
        && (forall j :: 0 < j < n ==> !EndsAt(io.input, j, term))
        && (!r.found ==> n == Limit(io))
        // the bytes read, then a NUL, at the front of the buffer
        && r.line.buf[..n] == io.input[..n] && r.line.buf[n] == NUL
        && r.line.buf[n + 1..] == line.buf[n + 1..])
  {
  }
}
